=== FILE: README.md ===
# Fireblocks recovery utility and relay: a Dafny model of the core

This project models the core of the Fireblocks workspace recovery tools and
proves properties of that model. The core has seven parts:

- **Bitcoin Cash wallet of the relay** (`Bch`). It covers:
  - the late-initialised explorer endpoint;
  - the mapping of explorer UTXOs to the shared UTXO shape;
  - the balance;
  - the input filtering and selection of `generateTx`;
  - the broadcast result rule.
- **Workspace of the recovery utility** (`Workspace`). It covers:
  - CSV rows grouped into vault accounts and wallets, with derivations kept sorted by address index;
  - the index range each imported wallet is re-derived over;
  - the id given to a new account;
  - `restoreWallet`;
  - the `isTestnet` and `path` query parameters;
  - `reset`.
- **Derivation server** (`Server`). It covers:
  - query-parameter defaulting;
  - request validation, in the order the handler evaluates it;
  - the inclusive index loop of `derive_keys_impl` and the public-path format;
  - storing and filtering recovered extended keys;
  - listing them.
- **Wallet-list assembly** (`AddWallets`). One derive query per account, a second legacy query for BTC, and a WIF lookup per non-EdDSA derivation.
- **Extended-key schema** (`ExtendedKeys`). The four optional, trimmed keys, each a four-letter prefix followed by 107 alphanumerics.
- **Key list of the keys dialog** (`KeysModal`). The row's derivations are projected, filtered on a truthy public key, and deduplicated, keeping first occurrences.
- **Relay page** (`Relay`). The title for an inbound action, and when the missing-keys warning shows.

Shared modules:

- `Wrappers`: `Option` and `Result`.
- `Text`: the JavaScript and Python string primitives the core relies on: `split`, `join`, `includes`, `trim`, `toLowerCase`, `parseInt`, `String(n)` and `int(s)`.
- `Seqs`: order-preserving filtering and the subsequence relation.

Everything the core gets from outside is a parameter: explorer answers, HTTP statuses, the transaction library, key derivation, the recovery routine, the derivation server's answers and the asset tables. The Python server's global key store is a `Store` value that is passed in and returned.

Two details of the code that are easy to misread:

- **Selection stop rule.** The loop keeps taking UTXOs while the running total does not strictly exceed the amount (BCH.ts:65). So a prefix summing exactly to the amount still takes the next UTXO. `Bch.ExactPrefixTakesNext` shows this.
- **Empty UTXO list.** An empty explorer answer fails in the seedless `reduce` (BCH.ts:50) with the engine's TypeError, not with a message of the wallet's own. `Bch.ReduceSum` models that error.

## Model

| member | source | states |
|---|---|---|
| Bch.NewWallet | apps/recovery-relay/lib/wallets/BTCBased/BCH.ts:12-25 | a wallet is late-init exactly when it is testnet; a testnet wallet starts with the empty endpoint and is not ready, a mainnet wallet starts with the fixed explorer URL and is ready |
| Bch.UpdateDataEndpoint | apps/recovery-relay/lib/wallets/BTCBased/BCH.ts:27-29 | only the endpoint changes, and a non-empty endpoint makes the wallet ready |
| Bch.FoldLeftIsSum | apps/recovery-relay/lib/wallets/BTCBased/BCH.ts:50 | the left-to-right accumulation of `reduce` equals the reference sum |
| Bch.ReduceSum | apps/recovery-relay/lib/wallets/BTCBased/BCH.ts:50 | `reduce` with no initial value fails exactly on an empty array and otherwise gives the sum |
| Bch.Prepare | apps/recovery-relay/lib/wallets/BTCBased/BCH.ts:38-57 | fails with "Endpoint not initialized yet" exactly when the endpoint is not ready; otherwise fails exactly on an empty answer; each raw UTXO maps one-to-one and in order (hash=txid, value=amount, index=vout, confirmed iff confirmations > 0), and the balance is the sum of the values |
| Bch.GetBalance | apps/recovery-relay/lib/wallets/BTCBased/BCH.ts:31-36 | the same endpoint error, success exactly when `prepare` succeeds, and then the sum of the raw amounts |
| Bch.UpdatedEndpointIsReady | apps/recovery-relay/lib/wallets/BTCBased/BCH.ts:27-41 | after a non-empty endpoint is set, neither `getBalance` nor `prepare` reports the missing endpoint |
| Bch.CountFrom | apps/recovery-relay/lib/wallets/BTCBased/BCH.ts:62-70 | the `forEach` adds UTXOs while the running total does not exceed the amount, and stops at the first prefix whose total exceeds it |
| Bch.SelectCount | apps/recovery-relay/lib/wallets/BTCBased/BCH.ts:62-70 | the count is the shortest prefix whose total strictly exceeds the amount, or the whole list |
| Bch.Select | apps/recovery-relay/lib/wallets/BTCBased/BCH.ts:62-75 | success gives a prefix of the allowed list covering the amount, with every shorter prefix not exceeding it; failure is "Insufficient amount selected." exactly when even the whole list falls short |
| Bch.SelectSucceedsIffCovered | apps/recovery-relay/lib/wallets/BTCBased/BCH.ts:62-73 | with non-negative values, selection succeeds iff all allowed UTXOs together cover the amount |
| Bch.ExactPrefixTakesNext | apps/recovery-relay/lib/wallets/BTCBased/BCH.ts:65-69 | a prefix summing exactly to the amount does not stop the loop: the next UTXO is also taken |
| Bch.ExceedingPrefixStops | apps/recovery-relay/lib/wallets/BTCBased/BCH.ts:64-70 | once the total exceeds the amount, later UTXOs are skipped |
| Bch.ExactTotalSucceeds | apps/recovery-relay/lib/wallets/BTCBased/BCH.ts:71-73 | a list summing exactly to the amount is accepted |
| Bch.AllowedAsWritten | apps/recovery-relay/lib/wallets/BTCBased/BCH.ts:60-61 | the kept candidates are exactly those whose hash is the txid of some live UTXO, each kept as many times as it occurs among the candidates, in candidate order |
| Bch.LastByTxid | apps/recovery-relay/lib/wallets/BTCBased/BCH.ts:60 | a Map built from the live UTXOs keyed by txid finds the last live UTXO with that txid |
| Bch.ResolveAsWritten | apps/recovery-relay/lib/wallets/BTCBased/BCH.ts:60-84 | one unspent output per selected UTXO, in order; each is the last live output whose txid is the selected hash, whatever the selected output index |
| Bch.GenerateTxAsWritten | apps/recovery-relay/lib/wallets/BTCBased/BCH.ts:59-96 | missing candidates throw; otherwise it fails exactly when selection over the allowed candidates fails; success signs the resolved inputs and returns the wallet's path |
| Bch.ResolveAsWrittenDuplicatesOutpoint | apps/recovery-relay/lib/wallets/BTCBased/BCH.ts:60-84 | two selected outputs of one transaction are both resolved to the transaction's last output |
| Bch.Allowed | apps/recovery-relay/lib/wallets/BTCBased/BCH.ts:60-61 | corrected filter: the kept candidates are exactly those that are themselves live outputs (txid and vout), each kept as many times as it occurs among the candidates, in candidate order |
| Bch.FindOutput | apps/recovery-relay/lib/wallets/BTCBased/BCH.ts:76 | corrected lookup: finds a live entry iff the candidate's own output is live, and that entry has the candidate's txid and vout |
| Bch.Resolve | apps/recovery-relay/lib/wallets/BTCBased/BCH.ts:75-84 | each selected UTXO becomes a live output with its own txid and output index |
| Bch.ResolveKeepsOutpointsDistinct | apps/recovery-relay/lib/wallets/BTCBased/BCH.ts:75-84 | distinct selected outputs become distinct inputs |
| Bch.GenerateTx | apps/recovery-relay/lib/wallets/BTCBased/BCH.ts:59-96 | `generateTx` with the corrected lookup; same error cases as the code |
| Bch.ResolveSpendsEachOutput | apps/recovery-relay/lib/wallets/BTCBased/BCH.ts:60-84 | on the input that shows the duplicate, the corrected resolution spends both outputs |
| Bch.BroadcastTx | apps/recovery-relay/lib/wallets/BTCBased/BCH.ts:98-122 | for a parsed transaction the id is returned iff the POST to "/rawtransactions/sendRawTransaction/" followed by the re-serialized transaction answers status 200, and any other status is "Failed to send transaction."; a parse error propagates |
| Bch.BroadcastPostsOnlySendPath | apps/recovery-relay/lib/wallets/BTCBased/BCH.ts:98-107 | two endpoints that answer the same status for that one send path give the same outcome, whatever they answer for other paths |
| Text.SplitCount | packages/recovery-utility/renderer/context/Workspace.tsx:48 | `split` on one separator character yields one piece per occurrence of the separator, plus one |
| Text.JoinSplit | packages/recovery-utility/renderer/context/Workspace.tsx:48 | joining the pieces of `split` with the separator gives back the string |
| Text.SplitJoin | packages/recovery-utility/renderer/context/Workspace.tsx:48 | splitting a join of separator-free parts gives the parts back |
| Text.SplitPath | packages/recovery-utility/renderer/context/Workspace.tsx:48 | one part per comma plus one, each an integer or NaN |
| Text.SplitPathOfJoinInts | packages/recovery-utility/renderer/context/Workspace.tsx:48 | `splitPath` reads a comma-joined list of integers back as those integers |
| Text.ParseJsIntOfIntToString | packages/app/main/ipc/addWallets.ts:77 | `parseInt(String(i))` is `i` for every integer |
| Text.ParsePyIntOfIntToString | packages/server/__main__.py:48-55 | Python `int(str(i))` is `i` for every integer |
| Text.ToLowerAscii | packages/recovery-utility/renderer/context/Workspace.tsx:328 | same length; upper-case ASCII letters become lower case and every other character is kept |
| Text.StripStart | packages/shared/schemas/extendedKeys.ts:7 | removes exactly the longest leading run of whitespace |
| Text.StripEnd | packages/shared/schemas/extendedKeys.ts:7 | removes exactly the longest trailing run of whitespace |
| Text.ContainsUnderscoreTest | packages/recovery-utility/renderer/context/Workspace.tsx:309 | an asset id containing "_TEST" also contains "TEST" |
| Seqs.Filter | apps/recovery-utility/renderer/components/Modals/KeysModal/index.tsx:42 | the kept elements are exactly the input elements satisfying the predicate, every occurrence of each kept (multiset counts), as a subsequence of the input |
| Seqs.SubsequenceTransitive | apps/recovery-utility/renderer/components/Modals/KeysModal/index.tsx:36-48 | a subsequence of a subsequence is a subsequence, so chained filters preserve order |
| ExtendedKeys.MatchesKeyRegex | packages/shared/schemas/extendedKeys.ts:8 | the anchored regular expression accepts exactly the prefix followed by 107 ASCII letters or digits |
| ExtendedKeys.ParseKey | packages/shared/schemas/extendedKeys.ts:3-9 | an absent key is accepted; a present key is accepted iff its trimmed value is in the key language, yielding the trimmed value; the error is "Invalid " plus the prefix |
| ExtendedKeys.AcceptedKeyShape | packages/shared/schemas/extendedKeys.ts:8 | an accepted key is 111 characters long and starts with its prefix |
| ExtendedKeys.FieldsAreDisjoint | packages/shared/schemas/extendedKeys.ts:11-16 | a value accepted for one field is rejected by every other field |
| ExtendedKeys.IssuesOf | packages/shared/schemas/extendedKeys.ts:11-16 | every reported issue is a failing field with its message |
| ExtendedKeys.IssuesOfCoversFailures | packages/shared/schemas/extendedKeys.ts:11-16 | every failing field among those checked is reported |
| ExtendedKeys.ParseExtendedKeys | packages/shared/schemas/extendedKeys.ts:11-16 | succeeds iff all four fields pass, with each field's trimmed value; otherwise fails with a non-empty list that names every failing field and only failing fields |
| Relay.GetRxTitle | apps/recovery-relay/pages/relay.tsx:6-17 | undefined iff there are no parameters or the action is none of the three; "import" gives "Extended public keys & wallet"; every title is one of the three |
| Relay.TitleIdentifiesAction | apps/recovery-relay/pages/relay.tsx:6-17 | with distinct action constants, the transaction actions get their own titles and each title gives back its action |
| Relay.HasExtendedPublicKeys | apps/recovery-relay/pages/relay.tsx:20-22 | true iff keys exist and `xpub` or `fpub` is non-empty |
| Relay.ShowsMissingKeysWarning | apps/recovery-relay/pages/relay.tsx:32-36 | the warning is shown iff the workspace has no keys, or has neither a non-empty xpub nor a non-empty fpub |
| Relay.AcceptedXpubClearsWarning | apps/recovery-relay/pages/relay.tsx:20-22 | keys that passed the schema with an `xpub` or `fpub` present never show the warning |
| Workspace.PushSorted | packages/recovery-utility/renderer/context/Workspace.tsx:204-217 | push then stable sort by address index: the result is sorted, is the old entries plus the new one, and the new entry sits after every entry whose index is not larger, with the old entries in order around it |
| Workspace.InsertAt | packages/recovery-utility/renderer/context/Workspace.tsx:204-217 | inserting at the insertion point keeps the list sorted |
| Workspace.DerivationOf | packages/recovery-utility/renderer/context/Workspace.tsx:182-191 | the derivation carries the row's path, address, type, description, tag, keys and WIF |
| Workspace.NewWallet | packages/recovery-utility/renderer/context/Workspace.tsx:193-197 | a new wallet holds just the row's derivation and is testnet iff the asset id contains "TEST" |
| Workspace.FileRow | packages/recovery-utility/renderer/context/Workspace.tsx:199-222 | for a known account: the name and other wallets are unchanged, and the row's asset wallet gains exactly the row's derivation, kept sorted |
| Workspace.HandleRow | packages/recovery-utility/renderer/context/Workspace.tsx:177-230 | keeps every wallet well formed, adds only the row's account, leaves other accounts alone, and names a new account from the row or "Account <id>" |
| Workspace.HandleRowContents | packages/recovery-utility/renderer/context/Workspace.tsx:199-228 | the row's derivation is added to its own account and asset and to no other |
| Workspace.GroupRows | packages/recovery-utility/renderer/context/Workspace.tsx:175-234 | the accounts are exactly those some row names, and every wallet is well formed |
| Workspace.GroupRowsContents | packages/recovery-utility/renderer/context/Workspace.tsx:175-234 | each wallet holds, as a multiset, exactly the derivations of the rows for its account and asset |
| Workspace.AccountNamedByFirstRow | packages/recovery-utility/renderer/context/Workspace.tsx:223-228 | an account is named from its first row; later rows never rename it |
| Workspace.RowIsFiled | packages/recovery-utility/renderer/context/Workspace.tsx:177-230 | every row's derivation ends up in the wallet of its account and asset |
| Workspace.RederiveRequest | packages/recovery-utility/renderer/context/Workspace.tsx:242-253 | the request uses the import's xprv/fprv, and its index range runs from the smallest to the largest index the wallet lists, both attained |
| Workspace.RederiveWallet | packages/recovery-utility/renderer/context/Workspace.tsx:237-255 | a wallet of an unknown asset is left as it is; any other gets the derived list for its range |
| Workspace.Rederive | packages/recovery-utility/renderer/context/Workspace.tsx:236-259 | the same accounts, names and wallet keys, each wallet re-derived |
| Workspace.RestoreVaultAccounts | packages/recovery-utility/renderer/context/Workspace.tsx:171-262 | the previous accounts are replaced by exactly the accounts named in the CSV, each keeping its id, its CSV name and its CSV wallets, every wallet being the CSV wallet re-derived with the given keys; the stored keys are kept |
| Workspace.RederiveRangeCoversRows | packages/recovery-utility/renderer/context/Workspace.tsx:242-244 | the re-derivation range of a wallet covers the index of every row filed in it |
| Workspace.MaxOf | packages/recovery-utility/renderer/context/Workspace.tsx:273 | `Math.max` of a non-empty id set is an element at least as large as every element |
| Workspace.NextAccountId | packages/recovery-utility/renderer/context/Workspace.tsx:264-274 | the new id is unused: 0 for an empty workspace, otherwise one past the largest id |
| Workspace.RestoreVaultAccount | packages/recovery-utility/renderer/context/Workspace.tsx:264-286 | adds exactly one account with the new id, the given name and no wallets, and changes nothing else |
| Workspace.NextAccountIdSkipsGaps | packages/recovery-utility/renderer/context/Workspace.tsx:265-273 | with ids {0, 2, 5} the new id is 6, not the account count |
| Workspace.SingleAddressRequest | packages/recovery-utility/renderer/context/Workspace.tsx:289-296 | `restoreWallet` derives index 0 only, with the stored xprv/fprv |
| Workspace.RestoreWallet | packages/recovery-utility/renderer/context/Workspace.tsx:288-319 | nothing changes for an unknown account; otherwise only that account's wallet for the asset is set, to the derived list, testnet iff the asset id contains "_TEST" |
| Workspace.RestoreWalletIdempotent | packages/recovery-utility/renderer/context/Workspace.tsx:288-319 | restoring the same wallet twice equals restoring it once |
| Workspace.RestoreTestnetImpliesCsvTestnet | packages/recovery-utility/renderer/context/Workspace.tsx:309 | a wallet `restoreWallet` marks testnet is also testnet by the CSV import's rule (line 180) |
| Workspace.QueryIsTestnet | packages/recovery-utility/renderer/context/Workspace.tsx:326-329 | defined exactly when the parameter is a single string |
| Workspace.QueryIsTestnetFalseIff | packages/recovery-utility/renderer/context/Workspace.tsx:326-329 | a string parameter means mainnet iff it is "0" or any capitalisation of "false" |
| Workspace.QueryPathParts | packages/recovery-utility/renderer/context/Workspace.tsx:321 | a string path gives one part per comma plus one; anything else gives no parts |
| Workspace.QueryPathPartsOfInts | packages/recovery-utility/renderer/context/Workspace.tsx:321 | a path spelled from integers reads back as those integers |
| Workspace.Reset | packages/recovery-utility/renderer/context/Workspace.tsx:331-335 | no extended keys and no accounts remain |
| Workspace.ResetThenRestoreAccount | packages/recovery-utility/renderer/context/Workspace.tsx:331-333 | after a reset the next account gets id 0, whatever came before |
| Server.GetParameter | packages/server/__main__.py:37-43 | fails iff the parameter is blank and there is no default; a non-blank value is returned; a blank one gets a truthy default; an empty-string default leaves it blank |
| Server.GetParameterNeverBlank | packages/server/__main__.py:37-43 | with no default or a truthy default, a successful result is never blank |
| Server.PyInt | packages/server/__main__.py:48-55 | `int` of a missing value is a TypeError, of a malformed string a ValueError, and otherwise Python's integer reading |
| Server.FlagParameter | packages/server/__main__.py:56-58 | a flag is true iff the parameter is exactly "True" or "true" |
| Server.DataKey | packages/server/__main__.py:71-77 | ECDSA uses XPRV, EdDSA uses FPRV, any other type is a KeyError naming it |
| Server.ParseParams | packages/server/__main__.py:46-65 | succeeds iff the asset, account, change and index readers all succeed and the three numbers are non-negative; otherwise the first failing reader's error propagates, in the order asset, account, change, index, and then the first negative number gives "Invalid account: <n>", "Invalid change: <n>" or "Invalid index: <n>"; on success the asset is the non-empty parameter and the account, change, index and flags are exactly what the readers give |
| Server.ParamsOfReaders | packages/server/__main__.py:46-65 | any parameters the readers return, with non-negative numbers, are exactly the result of parsing |
| Server.ResolveKey | packages/server/__main__.py:67-84 | succeeds iff the asset is known, its type is supported and its key is stored; an unknown asset gives "Unknown asset: <asset>"; success carries the asset's helper, the stored key and the parsed parameters |
| Server.UnpackRequest | packages/server/__main__.py:46-96 | parameter errors come first and are returned unchanged; otherwise the store decides; a successful request never has a negative account, change or index |
| Server.NegativeAccountRejectedBeforeLookup | packages/server/__main__.py:60-70 | a negative account fails with "Invalid account: <n>" whatever the store holds |
| Server.KeyFamilyChoice | packages/server/__main__.py:71-81 | the key family follows the asset type, and a missing key is a KeyError naming it |
| Server.DeriveOne | packages/server/__main__.py:130-149 | a public-only derivation has no private key, an empty WIF, the verifier's public key and address, and the public path; otherwise it is the helper's derivation details; both are built with the loop index |
| Server.DeriveRange | packages/server/__main__.py:129-150 | one result per index of `range(start, end + 1)`, in ascending order |
| Server.DeriveKeysImpl | packages/server/__main__.py:113-150 | succeeds iff the request unpacks and both range bounds parse; an unpacking error propagates; the results cover the inclusive range in order |
| Server.PublicPathParses | packages/server/__main__.py:141-144 | the public path reads back as [44, coin id (1 on testnet), account, change, index] |
| Server.PublicResultsParse | packages/server/__main__.py:131-146 | every public-only result lacks the private key, and its path reads back with its own index |
| Server.StoreKeys | packages/server/__main__.py:198-202 | stores the named keys in order; succeeds iff all are present, and then stores exactly them and keeps the other keys; otherwise fails naming the first missing key, with the keys before it already stored and every other key unchanged |
| Server.RecoverKeysImpl | packages/server/__main__.py:181-211 | succeeds iff the recovery returned all four keys; a RecoveryException passes through and any other failure becomes an internal error; a dictionary missing a key fails with "Internal error during recovery process: '<key>'" for the first missing one, with the keys before it stored; the four keys are stored; XPRV and FPRV are removed from the answer unless private keys were requested |
| Server.RecoverWithholdsPrivateKeys | packages/server/__main__.py:203-205 | without `recover-prv` the answer holds XPUB and FPUB but neither private key |
| Server.ShowExtendedKeysImpl | packages/server/__main__.py:227-238 | returns the four stored keys iff all are non-empty; otherwise "No extended key entries. Make sure to recover the addresses first." |
| Server.RecoverThenShow | packages/server/__main__.py:181-238 | after a successful recovery of four non-empty keys, listing returns exactly the recovered values |
| AddWallets.DeriveQuery | packages/app/main/ipc/addWallets.ts:59-68 | the derive query has the eight parameters, with change "0" and xpub "false" |
| AddWallets.WifQuery | packages/app/main/ipc/addWallets.ts:38-44 | the WIF query has the asset, change "0", and the account and index spelled by `String` |
| AddWallets.ToWallet | packages/app/main/ipc/addWallets.ts:76-96 | keys and address are copied; the path is split and parsed; the entry is Deposit iff the parsed index is positive; there is a WIF iff the asset is not EdDSA, fetched with the account and index parsed from the path |
| AddWallets.AccountWallets | packages/app/main/ipc/addWallets.ts:51-101 | exactly one entry per derivation the server returns, in the server's order |
| AddWallets.PerAccount | packages/app/main/ipc/addWallets.ts:119-138 | the non-legacy entries come first; only "BTC" adds the legacy entries after them |
| AddWallets.Collect | packages/app/main/ipc/addWallets.ts:110-143 | the loop concatenates the per-account lists for every account from start to end, inclusive |
| AddWallets.GetWallets | packages/app/main/ipc/addWallets.ts:103-144 | the result is the per-account lists of `accountIdStart..accountIdEnd` in ascending account order, testnet taken from "_TEST" in the asset id |
| AddWallets.AccountOrder | packages/app/main/ipc/addWallets.ts:114-141 | the first account's list leads the result and the last account's list ends it |
| AddWallets.DeriveQueryAsServerReadsIt | packages/app/main/ipc/addWallets.ts:59-68 | the server reads a derive query back as the same asset, account, change 0, index 0, xpub off, the same testnet and legacy flags, and the same index range |
| KeysModal.FindIndex | apps/recovery-utility/renderer/components/Modals/KeysModal/index.tsx:47 | `findIndex` gives the first index holding the public key, or -1 iff there is none |
| KeysModal.KeepFirstNoDuplicates | apps/recovery-utility/renderer/components/Modals/KeysModal/index.tsx:45-48 | the index-aware filter never keeps two entries with the same public key |
| KeysModal.KeepFirstCovers | apps/recovery-utility/renderer/components/Modals/KeysModal/index.tsx:45-48 | every public key whose first occurrence is in range is kept |
| KeysModal.Dedupe | apps/recovery-utility/renderer/components/Modals/KeysModal/index.tsx:44-48 | no public key twice; each kept entry is the first entry with its public key; the entries come in the order of their keys' first occurrences; no public key is lost |
| KeysModal.FilterKeepsFirst | apps/recovery-utility/renderer/components/Modals/KeysModal/index.tsx:42-48 | filtering on a truthy public key does not change which entry comes first for a truthy key |
| KeysModal.Projected | apps/recovery-utility/renderer/components/Modals/KeysModal/index.tsx:36-41 | each derivation is projected, in order, to its public key, private key and WIF only |
| KeysModal.Keys | apps/recovery-utility/renderer/components/Modals/KeysModal/index.tsx:36-48 | undefined iff there is no row; otherwise the projected derivations with a truthy public key, each the first with that key, no key twice, every truthy key present, in the order of the keys' first occurrences |
| KeysModal.FirstInProjection | apps/recovery-utility/renderer/components/Modals/KeysModal/index.tsx:36-48 | a kept entry is the projection of the first derivation carrying its public key |

## Left out

- Network, cryptography and UI:
  - explorer fetches, HTTP, QR codes and React rendering;
  - key derivation, signing, transaction serialisation and the zip/RSA recovery routine.
  Each is an uninterpreted parameter, or is absent where the core only forwards it.
- Floating point and units. BCH amounts are integers.
  - `Bch.Select` reads `amount` as the source's `amount * 10 ** 8`. So `sum / 10 ** 8 > amount` becomes `sum > amount` with no rounding.
  - The code's `prepare` maps the explorer's `amount` field into `value`, while the selection divides values by 10^8 as if they were satoshis. This unit mismatch is not modelled; both are the same integer here.
- Bch.GenerateTxAsWritten: the non-null assertion on `utxos` is modelled as the `TypeError` a missing array raises on `filter`. The message text is the V8 wording.
- Server.PyInt: Python's `int` also accepts `_` digit separators and non-ASCII decimal digits, and its error message quotes the value with `repr`. The model accepts ASCII digits only and quotes with plain single quotes.
- Store key names: the global-state module that defines the four store keys, and the asset-type constants, is not part of this model. The key names are placeholders. The asset descriptions and the keys share one store namespace in the source; here they are two maps.
- Server.UnpackRequest: the helper class is assumed not to raise when it is instantiated with the key; its constructor is outside the model.
- Server.DeriveOne: the public-only branch hands the private key chosen by `unpack_request` to `public_key_verification`; the model forwards that key as the code does and does not model what the verifier does with it.
- Workspace.RestoreVaultAccounts: the code clears the accounts (Workspace.tsx:232) before awaiting the CSV import and each re-derivation (Workspace.tsx:234, 246). If either rejects, the call throws and the workspace is left with no accounts. The model's CSV rows and deriver never fail, so it promises only the outcome of an import that completes.
- Workspace.RestoreVaultAccount: the id is computed with the state updater taken to run at once on the state the id came from. React may defer the updater, and the value returned would then be the account count.
- Text.IntToString: JavaScript's `String` switches to exponent notation once the magnitude reaches 10^21, which Python's `int` would then reject. The model always spells the decimal digits.
- ExtendedKeys.ParseExtendedKeys: a field is either absent or a string. The schema also rejects a present value that is not a string, such as `null` or a number, with an "Expected string" issue; such input cannot be written in the model.
- Bch: the `address` of each unspent output, which the code computes from the script and the wallet's network (BCH.ts:78), is not part of `Outpoint`; the signer never sees the network.
- Workspace.GroupRows: every CSV row must carry a full path with an address index (`RowsIndexed`). Comparing an `undefined` index in the sort is not modelled.
- Workspace.QueryIsTestnet: `toLowerCase` is modelled on ASCII letters. That decides the comparison with "false" and "0" exactly, but other characters are not lower-cased.
- Workspace.NewWallet marks testnet by "TEST", while `restoreWallet` and `getWallets` use "_TEST". The model keeps both rules as written; `Workspace.RestoreTestnetImpliesCsvTestnet` relates them.
- AddWallets.GetWallets: the `isTestnet` field of the request is ignored by the code, which recomputes it from the asset id; the model's request has no such field. The `Promise.all` concurrency is modelled as in-order mapping, which is what `Promise.all` returns.
- The CSV parser, the idle-timeout detector, the relay's URL decoding and the asset tables are outside the core and are parameters or absent.

## Findings

| source | as written | input that shows it | evidently intended | confidence | as-written member | corrected member |
|---|---|---|---|---|---|---|
| apps/recovery-relay/lib/wallets/BTCBased/BCH.ts:60-84 | live UTXOs are put in a Map keyed by txid alone, so two outputs of one transaction collapse to the last one, and each selected UTXO is resolved by its hash only | live outputs (t, vout 0, 100) and (t, vout 1, 50); candidates are both outputs; amount 120 | each selected UTXO is matched and spent by its own output (txid and vout) | not executed | Bch.ResolveAsWrittenDuplicatesOutpoint | Bch.ResolveKeepsOutpointsDistinct |

=== FILE: add_wallets.dfy ===
/** Wallet-list assembly for an asset over a range of accounts: one derive
    request per account (and a second, legacy one for BTC), each returned
    derivation mapped to a wallet entry classified by its address index,
    with a WIF fetched for every non-EdDSA asset. The two server calls are
    parameters. */
module AddWallets {
  import opened Wrappers
  import opened Text
  import Workspace
  import Server

  /** One entry of the server's `/derive-keys` answer. */
  datatype DeriveKeysResponse = DeriveKeysResponse(prv: string, pub: string, address: string, path: string)

  /** One wallet entry of the list. */
  datatype WalletEntry = WalletEntry(
    assetId: string,
    pathParts: seq<JsNum>,
    address: string,
    addressType: Workspace.AddressType,
    publicKey: string,
    privateKey: string,
    wif: Option<string>)

  /** A query string, as `URLSearchParams` sends it. */
  type Query = map<string, string>

  /** `pythonServer.request` on `/derive-keys` and on `/get-wif`. */
  type DeriveCall = Query -> seq<DeriveKeysResponse>
  type WifCall = Query -> string

  /** `String(b)`. */
  function JsBool(b: bool): string {
    if b then "true" else "false"
  }

  /** The inputs of the wallet-list request. */
  datatype AddWalletsRequest = AddWalletsRequest(
    assetId: string, accountIdStart: int, accountIdEnd: int, indexStart: int, indexEnd: int)

  /** The asset facts the assembly reads: is it EdDSA-signed. */
  datatype AssetFacts = AssetFacts(isEdDSA: bool)

  /** The `/derive-keys` query for one account: change is always "0" and
      public-only derivation is always off. */
  function DeriveQuery(assetId: string, isTestnet: bool, accountId: int, indexStart: int, indexEnd: int,
                       legacy: bool): (q: Query)
    ensures q.Keys == {"asset", "account", "change", "index_start", "index_end", "xpub", "testnet", "legacy"}
    ensures q["change"] == "0" && q["xpub"] == "false"
  {
    map["asset" := assetId, "account" := IntToString(accountId), "change" := "0",
        "index_start" := IntToString(indexStart), "index_end" := IntToString(indexEnd),
        "xpub" := "false", "testnet" := JsBool(isTestnet), "legacy" := JsBool(legacy)]
  }

  /** The `/get-wif` query for one derivation: the account and index are the
      ones parsed back from the derivation's path. */
  function WifQuery(assetId: string, accountId: JsNum, index: JsNum): (q: Query)
    ensures q.Keys == {"asset", "account", "change", "index"}
    ensures q["asset"] == assetId && q["change"] == "0"
    ensures q["account"] == JsString(accountId) && q["index"] == JsString(index)
  {
    map["asset" := assetId, "account" := JsString(accountId), "change" := "0", "index" := JsString(index)]
  }

  /** The per-derivation mapping of `getAccountWallets`. */
  function ToWallet(assetId: string, facts: AssetFacts, getWif: WifCall, data: DeriveKeysResponse): (w: WalletEntry)
    ensures w.assetId == assetId && w.address == data.address
    ensures w.publicKey == data.pub && w.privateKey == data.prv
    ensures w.pathParts == SplitPath(data.path)
    ensures w.addressType == Workspace.Deposit <==> IsPositive(At(SplitPath(data.path), 4))
    ensures w.wif.None? <==> facts.isEdDSA
    ensures w.wif.Some? ==> w.wif.value == getWif(WifQuery(assetId, At(w.pathParts, 2), At(w.pathParts, 4)))
  {
    var pathParts := SplitPath(data.path);
    var accountId := At(pathParts, 2);
    var index := At(pathParts, 4);
    var wif := if !facts.isEdDSA then Some(getWif(WifQuery(assetId, accountId, index))) else None;
    WalletEntry(assetId, pathParts, data.address,
                if IsPositive(index) then Workspace.Deposit else Workspace.Permanent,
                data.pub, data.prv, wif)
  }

  /** `getAccountWallets`: the server's derivations for one account, each
      mapped to exactly one entry, in the server's order. */
  function AccountWallets(assetId: string, isTestnet: bool, accountId: int, indexStart: int, indexEnd: int,
                          legacy: bool, facts: AssetFacts, derive: DeriveCall, getWif: WifCall): (ws: seq<WalletEntry>)
    ensures var ds := derive(DeriveQuery(assetId, isTestnet, accountId, indexStart, indexEnd, legacy));
            && |ws| == |ds|
            && forall i :: 0 <= i < |ws| ==> ws[i] == ToWallet(assetId, facts, getWif, ds[i])
  {
    var ds := derive(DeriveQuery(assetId, isTestnet, accountId, indexStart, indexEnd, legacy));
    seq(|ds|, i requires 0 <= i < |ds| => ToWallet(assetId, facts, getWif, ds[i]))
  }

  /** The wallets requested for one account: the non-legacy ones, followed
      for "BTC" alone by the legacy ones. */
  function PerAccount(req: AddWalletsRequest, accountId: int, facts: AssetFacts,
                      derive: DeriveCall, getWif: WifCall): (ws: seq<WalletEntry>)
    ensures var plain := AccountWallets(req.assetId, Contains(req.assetId, "_TEST"), accountId,
                                        req.indexStart, req.indexEnd, false, facts, derive, getWif);
            && |plain| <= |ws|
            && ws[..|plain|] == plain
            && (req.assetId != "BTC" ==> ws == plain)
            && (req.assetId == "BTC" ==>
                  ws[|plain|..] == AccountWallets(req.assetId, Contains(req.assetId, "_TEST"), accountId,
                                                 req.indexStart, req.indexEnd, true, facts, derive, getWif))
  {
    var isTestnet := Contains(req.assetId, "_TEST");
    var plain := AccountWallets(req.assetId, isTestnet, accountId, req.indexStart, req.indexEnd, false,
                                facts, derive, getWif);
    if req.assetId == "BTC" then
      var legacy := AccountWallets(req.assetId, isTestnet, accountId, req.indexStart, req.indexEnd, true,
                                   facts, derive, getWif);
      assert (plain + legacy)[..|plain|] == plain;
      plain + legacy
    else plain
  }

  /** Reference definition: the lists `per(start), per(start+1), …,
      per(last)`, concatenated in that order. */
  function Concatenated(per: int -> seq<WalletEntry>, start: int, last: int): seq<WalletEntry>
    decreases last - start
  {
    if start > last then [] else per(start) + Concatenated(per, start + 1, last)
  }

  /** Extending the range by one account appends that account's list. */
  lemma {:induction false} ConcatenatedSnoc(per: int -> seq<WalletEntry>, start: int, last: int)
    requires start <= last + 1
    ensures Concatenated(per, start, last + 1) == Concatenated(per, start, last) + per(last + 1)
    decreases last - start
  {
    if start <= last {
      ConcatenatedSnoc(per, start + 1, last);
    }
  }

  /** The lists of every account, in the order `getWallets` visits them. */
  function AllAccounts(req: AddWalletsRequest, facts: AssetFacts, derive: DeriveCall, getWif: WifCall): seq<WalletEntry> {
    Concatenated(id => PerAccount(req, id, facts, derive, getWif), req.accountIdStart, req.accountIdEnd)
  }

  /** `getWallets`: every account id of `accountIdStart..accountIdEnd`,
      inclusive and ascending, contributes its list, in that order. */
  method GetWallets(req: AddWalletsRequest, facts: AssetFacts, derive: DeriveCall, getWif: WifCall)
    returns (wallets: seq<WalletEntry>)
    ensures wallets == AllAccounts(req, facts, derive, getWif)
  {
    var per := id => PerAccount(req, id, facts, derive, getWif);
    wallets := Collect(per, req.accountIdStart, req.accountIdEnd);
  }

  /** The loop of `getWallets`, over any per-account list. */
  method Collect(per: int -> seq<WalletEntry>, start: int, last: int) returns (wallets: seq<WalletEntry>)
    ensures wallets == Concatenated(per, start, last)
  {
    wallets := [];
    if start > last {
      return;
    }
    var accountId := start;
    while accountId <= last
      invariant start <= accountId <= last + 1
      invariant wallets == Concatenated(per, start, accountId - 1)
      decreases last + 1 - accountId
    {
      ConcatenatedSnoc(per, start, accountId - 1);
      wallets := wallets + per(accountId);
      accountId := accountId + 1;
    }
  }

  /** The first account's list leads the result and the last account's
      list ends it: the accounts appear in ascending order. */
  lemma AccountOrder(req: AddWalletsRequest, facts: AssetFacts, derive: DeriveCall, getWif: WifCall)
    requires req.accountIdStart <= req.accountIdEnd
    ensures var all := AllAccounts(req, facts, derive, getWif);
            var first := PerAccount(req, req.accountIdStart, facts, derive, getWif);
            var final := PerAccount(req, req.accountIdEnd, facts, derive, getWif);
            |first| <= |all| && all[..|first|] == first
            && |final| <= |all| && all[|all| - |final|..] == final
  {
    var per := id => PerAccount(req, id, facts, derive, getWif);
    var all := Concatenated(per, req.accountIdStart, req.accountIdEnd);
    assert all == per(req.accountIdStart) + Concatenated(per, req.accountIdStart + 1, req.accountIdEnd);
    ConcatenatedSnoc(per, req.accountIdStart, req.accountIdEnd - 1);
  }

  /** The server reads a derive query exactly as it was meant: the account,
      change 0, the index range, public-only derivation off, and the same
      testnet and legacy flags. */
  lemma DeriveQueryAsServerReadsIt(assetId: string, isTestnet: bool, accountId: nat, indexStart: int,
                                   indexEnd: int, legacy: bool)
    requires assetId != ""
    ensures var q := DeriveQuery(assetId, isTestnet, accountId, indexStart, indexEnd, legacy);
            && Server.ParseParams(q) == Success(Server.Params(assetId, accountId, 0, 0, isTestnet, false, legacy))
            && Server.IntParameter(q, "index_start", Some("0")) == Success(indexStart)
            && Server.IntParameter(q, "index_end", Some("0")) == Success(indexEnd)
  {
    var q := DeriveQuery(assetId, isTestnet, accountId, indexStart, indexEnd, legacy);
    DeriveQueryEntries(assetId, isTestnet, accountId, indexStart, indexEnd, legacy);
    QueryIntParameter(q, "account", None, accountId);
    QueryIntParameter(q, "change", Some("0"), 0);
    QueryIntParameter(q, "index_start", Some("0"), indexStart);
    QueryIntParameter(q, "index_end", Some("0"), indexEnd);
    DefaultIndex(q);
    QueryFlags(q, isTestnet, legacy);
    Server.ParamsOfReaders(q, Server.Params(assetId, accountId, 0, 0, isTestnet, false, legacy));
  }

  /** The entries of a derive query, one by one. */
  lemma DeriveQueryEntries(assetId: string, isTestnet: bool, accountId: int, indexStart: int,
                           indexEnd: int, legacy: bool)
    ensures var q := DeriveQuery(assetId, isTestnet, accountId, indexStart, indexEnd, legacy);
            && q["asset"] == assetId && q["account"] == IntToString(accountId)
            && q["index_start"] == IntToString(indexStart) && q["index_end"] == IntToString(indexEnd)
            && q["testnet"] == JsBool(isTestnet) && q["legacy"] == JsBool(legacy)
            && "index" !in q
  {
  }

  /** A query entry holding the decimal spelling of `n` reads back as `n`. */
  lemma QueryIntParameter(q: Query, k: string, fallback: Option<string>, n: int)
    requires k in q && q[k] == IntToString(n)
    ensures Server.IntParameter(q, k, fallback) == Success(n)
  {
    ParsePyIntOfIntToString(n);
  }

  /** A derive query has no `index`, so the server uses its default 0. */
  lemma DefaultIndex(q: Query)
    requires "index" !in q
    ensures Server.IntParameter(q, "index", Some("0")) == Success(0)
  {
    assert Server.GetParameter(q, "index", Some("0")) == Success(Some("0"));
    ZeroSpelling();
    ParsePyIntOfIntToString(0);
    assert Server.PyInt(Some("0")) == Success(0);
  }

  lemma ZeroSpelling()
    ensures IntToString(0) == "0"
  {
  }

  /** The flags of a derive query as the server reads them. */
  lemma QueryFlags(q: Query, isTestnet: bool, legacy: bool)
    requires "xpub" in q && q["xpub"] == "false"
    requires "testnet" in q && q["testnet"] == JsBool(isTestnet)
    requires "legacy" in q && q["legacy"] == JsBool(legacy)
    ensures Server.FlagParameter(q, "xpub") == false
    ensures Server.FlagParameter(q, "testnet") == isTestnet
    ensures Server.FlagParameter(q, "legacy") == legacy
  {
  }
}

=== FILE: bch.dfy ===
/** The Bitcoin Cash wallet of the recovery relay: a late-initialised
    explorer endpoint, the mapping of explorer UTXOs to the canonical shape,
    the balance, the input selection of `generateTx` and the broadcast
    result. The explorer's answers, the POST status and the transaction
    library are parameters. Values and amounts are integers in satoshi, so
    the source's `sum / 10 ** 8 > amount` becomes `sum > amount`. */
module Bch {
  import opened Wrappers
  import opened Seqs

  const MainnetEndpoint: string := "https://rest.bch.actorforth.org/v2"

  const EndpointNotInitialized: string := "Endpoint not initialized yet"
  const EmptyReduce: string := "Reduce of empty array with no initial value"
  const InsufficientAmount: string := "Insufficient amount selected."
  const SendFailed: string := "Failed to send transaction."
  const MissingCandidates: string := "Cannot read properties of undefined (reading 'filter')"

  datatype Network = Mainnet | Testnet

  datatype UtxoType = BaseUtxoType

  /** What the derivation base class holds for one address. */
  datatype Input = Input(isTestnet: bool, address: string, pathParts: seq<int>, privateKey: Option<string>)

  datatype Wallet = Wallet(
    isTestnet: bool,
    address: string,
    pathParts: seq<int>,
    privateKey: Option<string>,
    network: Network,
    endpoint: string)

  /** One entry of the explorer's `/address/utxo/<address>` answer. */
  datatype RawUtxo = RawUtxo(txid: string, vout: int, amount: int, confirmations: int, scriptPubKey: string, satoshis: int)

  /** The canonical UTXO shape shared by the wallets. */
  datatype Utxo = Utxo(hash: string, value: int, index: int, confirmed: bool)

  datatype AccountData = AccountData(utxoType: UtxoType, utxos: seq<Utxo>, balance: int)

  /** The fields of one `Transaction.UnspentOutput` handed to the library
      that the model tracks: its `address`, computed from the script and
      the wallet's network, is left out. */
  datatype Outpoint = Outpoint(txId: string, outputIndex: int, script: string, satoshis: int)

  datatype TxPayload = TxPayload(derivationPath: seq<int>, tx: string)

  /** Building, signing and serialising with the transaction library:
      (inputs, destination, amount, private key) to the serialised hex. */
  type Signer = (seq<Outpoint>, string, int, Option<string>) -> string

  /** A transaction parsed back from hex: its serialisation and its id. */
  datatype DecodedTx = DecodedTx(serialized: string, id: string)

  // ---------------------------------------------------------------------
  // Endpoint

  predicate IsLateInit(w: Wallet) {
    w.isTestnet
  }

  /** `getBalance` and `prepare` refuse to run exactly when this fails. */
  predicate EndpointReady(w: Wallet) {
    !(IsLateInit(w) && w.endpoint == "")
  }

  function NewWallet(input: Input): (w: Wallet)
    ensures IsLateInit(w) <==> input.isTestnet
    ensures IsLateInit(w) ==> w.endpoint == "" && w.network == Testnet && !EndpointReady(w)
    ensures !IsLateInit(w) ==> w.endpoint == MainnetEndpoint && w.network == Mainnet && EndpointReady(w)
    ensures w.address == input.address && w.pathParts == input.pathParts && w.privateKey == input.privateKey
  {
    Wallet(input.isTestnet, input.address, input.pathParts, input.privateKey,
           if input.isTestnet then Testnet else Mainnet,
           if input.isTestnet then "" else MainnetEndpoint)
  }

  function UpdateDataEndpoint(w: Wallet, endpoint: string): (w': Wallet)
    ensures w'.endpoint == endpoint
    ensures w'.(endpoint := w.endpoint) == w
    ensures endpoint != "" ==> EndpointReady(w')
  {
    w.(endpoint := endpoint)
  }

  // ---------------------------------------------------------------------
  // Sums

  /** Reference sum, peeling the last element. */
  function Sum(xs: seq<int>): int {
    if |xs| == 0 then 0 else Sum(xs[..|xs| - 1]) + xs[|xs| - 1]
  }

  /** The left-to-right accumulation `reduce` performs. */
  function FoldLeft(acc: int, xs: seq<int>): int
    decreases |xs|
  {
    if |xs| == 0 then acc else FoldLeft(acc + xs[0], xs[1..])
  }

  lemma {:induction false} SumCons(x: int, ys: seq<int>)
    ensures Sum([x] + ys) == x + Sum(ys)
  {
    if |ys| > 0 {
      var zs := [x] + ys;
      assert zs[..|zs| - 1] == [x] + ys[..|ys| - 1];
      SumCons(x, ys[..|ys| - 1]);
    }
  }

  /** Accumulating from the left computes the reference sum. */
  lemma {:induction false} FoldLeftIsSum(acc: int, xs: seq<int>)
    ensures FoldLeft(acc, xs) == acc + Sum(xs)
    decreases |xs|
  {
    if |xs| > 0 {
      FoldLeftIsSum(acc + xs[0], xs[1..]);
      SumCons(xs[0], xs[1..]);
      assert [xs[0]] + xs[1..] == xs;
    }
  }

  /** `xs.reduce((p, c) => p + c)` with no initial value: an empty array
      throws instead of giving 0. */
  function ReduceSum(xs: seq<int>): (r: Result<int, string>)
    ensures r.Failure? <==> |xs| == 0
    ensures r.Failure? ==> r.error == EmptyReduce
    ensures r.Success? ==> r.value == Sum(xs)
  {
    if |xs| == 0 then Failure(EmptyReduce)
    else
      FoldLeftIsSum(xs[0], xs[1..]);
      SumCons(xs[0], xs[1..]);
      assert [xs[0]] + xs[1..] == xs;
      Success(FoldLeft(xs[0], xs[1..]))
  }

  function Values(us: seq<Utxo>): (vs: seq<int>)
    ensures |vs| == |us|
    ensures forall i :: 0 <= i < |us| ==> vs[i] == us[i].value
  {
    seq(|us|, i requires 0 <= i < |us| => us[i].value)
  }

  // ---------------------------------------------------------------------
  // Balance

  function ToUtxo(raw: RawUtxo): Utxo {
    Utxo(raw.txid, raw.amount, raw.vout, raw.confirmations > 0)
  }

  /** `prepare`: the explorer's UTXOs for the address are `fetched`. */
  function Prepare(w: Wallet, fetched: seq<RawUtxo>): (r: Result<AccountData, string>)
    ensures !EndpointReady(w) ==> r == Failure(EndpointNotInitialized)
    ensures EndpointReady(w) ==> (r.Success? <==> |fetched| > 0)
    ensures EndpointReady(w) && |fetched| == 0 ==> r == Failure(EmptyReduce)
    ensures r.Success? ==> r.value.utxoType == BaseUtxoType && |r.value.utxos| == |fetched|
    ensures r.Success? ==> forall i :: 0 <= i < |fetched| ==>
      && r.value.utxos[i].hash == fetched[i].txid
      && r.value.utxos[i].value == fetched[i].amount
      && r.value.utxos[i].index == fetched[i].vout
      && (r.value.utxos[i].confirmed <==> fetched[i].confirmations > 0)
    ensures r.Success? ==> r.value.balance == Sum(Values(r.value.utxos))
  {
    if !EndpointReady(w) then Failure(EndpointNotInitialized)
    else
      var utxos := seq(|fetched|, i requires 0 <= i < |fetched| => ToUtxo(fetched[i]));
      var balance :- ReduceSum(Values(utxos));
      Success(AccountData(BaseUtxoType, utxos, balance))
  }

  /** `getBalance`: the balance `prepare` computes from the same answer. */
  function GetBalance(w: Wallet, fetched: seq<RawUtxo>): (r: Result<int, string>)
    ensures !EndpointReady(w) ==> r == Failure(EndpointNotInitialized)
    ensures r.Success? <==> Prepare(w, fetched).Success?
    ensures r.Success? ==> r.value == Prepare(w, fetched).value.balance
    ensures r.Success? ==> r.value == Sum(seq(|fetched|, i requires 0 <= i < |fetched| => fetched[i].amount))
  {
    if !EndpointReady(w) then Failure(EndpointNotInitialized)
    else
      var data :- Prepare(w, fetched);
      assert Values(data.utxos) == seq(|fetched|, i requires 0 <= i < |fetched| => fetched[i].amount);
      Success(data.balance)
  }

  /** Once a non-empty endpoint is set, neither `getBalance` nor `prepare`
      reports the missing endpoint again. */
  lemma UpdatedEndpointIsReady(w: Wallet, endpoint: string, fetched: seq<RawUtxo>)
    requires endpoint != ""
    ensures Prepare(UpdateDataEndpoint(w, endpoint), fetched) != Failure(EndpointNotInitialized)
    ensures GetBalance(UpdateDataEndpoint(w, endpoint), fetched) != Failure(EndpointNotInitialized)
  {
  }

  // ---------------------------------------------------------------------
  // Input selection

  /** Sum of the values of the first `k` UTXOs. */
  function PrefixTotal(us: seq<Utxo>, k: nat): int
    requires k <= |us|
  {
    Sum(Values(us)[..k])
  }

  lemma PrefixTotalStep(us: seq<Utxo>, i: nat)
    requires i < |us|
    ensures PrefixTotal(us, i + 1) == PrefixTotal(us, i) + us[i].value
  {
    var vs := Values(us);
    assert vs[..i + 1][..i] == vs[..i];
  }

  /** The `forEach` of `generateTx` from position `i` with running total
      `total`: a UTXO is added while the total does not exceed `amount`;
      once it does, every later iteration returns early. The result is the
      number of UTXOs added. */
  function CountFrom(us: seq<Utxo>, amount: int, i: nat, total: int): (k: nat)
    requires i <= |us|
    requires total == PrefixTotal(us, i)
    requires forall j :: 0 <= j < i ==> PrefixTotal(us, j) <= amount
    ensures i <= k <= |us|
    ensures forall j :: 0 <= j < k ==> PrefixTotal(us, j) <= amount
    ensures k < |us| ==> PrefixTotal(us, k) > amount
    decreases |us| - i
  {
    if i == |us| || total > amount then i
    else
      PrefixTotalStep(us, i);
      CountFrom(us, amount, i + 1, total + us[i].value)
  }

  /** Number of inputs taken: the length of the shortest prefix whose sum
      strictly exceeds `amount`, or the whole list when none does. */
  function SelectCount(us: seq<Utxo>, amount: int): (k: nat)
    ensures k <= |us|
    ensures forall j :: 0 <= j < k ==> PrefixTotal(us, j) <= amount
    ensures k < |us| ==> PrefixTotal(us, k) > amount
  {
    CountFrom(us, amount, 0, 0)
  }

  /** Selection and the insufficiency check of `generateTx`. */
  function Select(allowed: seq<Utxo>, amount: int): (r: Result<seq<Utxo>, string>)
    ensures r.Success? ==> |r.value| <= |allowed| && r.value == allowed[..|r.value|]
    ensures r.Success? ==> PrefixTotal(allowed, |r.value|) >= amount
    ensures r.Success? ==> forall j :: 0 <= j < |r.value| ==> PrefixTotal(allowed, j) <= amount
    ensures r.Success? && |r.value| < |allowed| ==> PrefixTotal(allowed, |r.value|) > amount
    ensures r.Failure? ==> r.error == InsufficientAmount
    ensures r.Failure? <==>
      PrefixTotal(allowed, |allowed|) < amount && forall j :: 0 <= j < |allowed| ==> PrefixTotal(allowed, j) <= amount
  {
    var k := SelectCount(allowed, amount);
    if PrefixTotal(allowed, k) < amount then Failure(InsufficientAmount)
    else Success(allowed[..k])
  }

  lemma {:induction false} PrefixTotalMonotone(us: seq<Utxo>, j: nat, k: nat)
    requires j <= k <= |us|
    requires forall i :: 0 <= i < |us| ==> us[i].value >= 0
    ensures PrefixTotal(us, j) <= PrefixTotal(us, k)
  {
    if j < k {
      PrefixTotalMonotone(us, j, k - 1);
      PrefixTotalStep(us, k - 1);
    }
  }

  /** With non-negative values, selection fails exactly when all allowed
      UTXOs together do not cover the amount. */
  lemma SelectSucceedsIffCovered(allowed: seq<Utxo>, amount: int)
    requires forall i :: 0 <= i < |allowed| ==> allowed[i].value >= 0
    ensures Select(allowed, amount).Success? <==> PrefixTotal(allowed, |allowed|) >= amount
  {
    var r := Select(allowed, amount);
    if r.Success? {
      PrefixTotalMonotone(allowed, |r.value|, |allowed|);
    } else {
      assert PrefixTotal(allowed, |allowed|) < amount;
    }
  }

  /** A prefix that sums exactly to the amount does not stop the selection:
      the next UTXO is taken too. */
  lemma ExactPrefixTakesNext()
    ensures var us := [Utxo("a", 60, 0, true), Utxo("b", 40, 0, true), Utxo("c", 30, 0, true)];
            Select(us, 100) == Success(us)
  {
    var us := [Utxo("a", 60, 0, true), Utxo("b", 40, 0, true), Utxo("c", 30, 0, true)];
    PrefixTotalStep(us, 0);
    PrefixTotalStep(us, 1);
    PrefixTotalStep(us, 2);
    assert us[..3] == us;
  }

  /** A prefix exceeding the amount ends the selection. */
  lemma ExceedingPrefixStops()
    ensures var us := [Utxo("a", 60, 0, true), Utxo("b", 50, 0, true), Utxo("c", 30, 0, true)];
            Select(us, 100) == Success(us[..2])
  {
    var us := [Utxo("a", 60, 0, true), Utxo("b", 50, 0, true), Utxo("c", 30, 0, true)];
    PrefixTotalStep(us, 0);
    PrefixTotalStep(us, 1);
  }

  /** A whole list summing exactly to the amount is accepted. */
  lemma ExactTotalSucceeds()
    ensures var us := [Utxo("a", 60, 0, true), Utxo("b", 40, 0, true)];
            Select(us, 100) == Success(us)
  {
    var us := [Utxo("a", 60, 0, true), Utxo("b", 40, 0, true)];
    PrefixTotalStep(us, 0);
    PrefixTotalStep(us, 1);
    assert us[..2] == us;
  }

  // ---------------------------------------------------------------------
  // generateTx as written: live UTXOs keyed by txid only

  predicate IsLiveTxid(live: seq<RawUtxo>, txid: string) {
    exists j :: 0 <= j < |live| && live[j].txid == txid
  }

  /** Candidates whose hash is the txid of some live UTXO, in candidate
      order; the others are dropped without error. */
  function AllowedAsWritten(candidates: seq<Utxo>, live: seq<RawUtxo>): (r: seq<Utxo>)
    ensures forall u :: u in r <==> u in candidates && IsLiveTxid(live, u.hash)
    ensures forall u :: multiset(r)[u] == if IsLiveTxid(live, u.hash) then multiset(candidates)[u] else 0
    ensures IsSubsequence(r, candidates)
  {
    Filter(candidates, (u: Utxo) => IsLiveTxid(live, u.hash))
  }

  /** `live[j]` is the last live entry with this txid. */
  predicate IsLastWithTxid(live: seq<RawUtxo>, j: int, txid: string) {
    && 0 <= j < |live|
    && live[j].txid == txid
    && forall k :: j < k < |live| ==> live[k].txid != txid
  }

  /** The index of the last live entry with this txid, or -1. */
  function LastIndexWithTxid(live: seq<RawUtxo>, txid: string): (j: int)
    ensures j == -1 <==> !IsLiveTxid(live, txid)
    ensures j != -1 ==> IsLastWithTxid(live, j, txid)
  {
    if |live| == 0 then -1
    else if live[|live| - 1].txid == txid then |live| - 1
    else
      var j := LastIndexWithTxid(live[..|live| - 1], txid);
      assert forall k :: 0 <= k < |live| - 1 ==> live[..|live| - 1][k] == live[k];
      j
  }

  /** `new Map(live.map((u) => [u.txid, u])).get(txid)`: a later entry with
      the same txid overwrites an earlier one, so the last one is found. */
  function LastByTxid(live: seq<RawUtxo>, txid: string): (r: Option<RawUtxo>)
    ensures r.Some? <==> IsLiveTxid(live, txid)
    ensures r.Some? ==> r.value == live[LastIndexWithTxid(live, txid)]
    ensures r.Some? ==> exists j :: 0 <= j < |live| && live[j] == r.value && live[j].txid == txid &&
                          forall k :: j < k < |live| ==> live[k].txid != txid
  {
    if |live| == 0 then None
    else if live[|live| - 1].txid == txid then Some(live[|live| - 1])
    else
      var r := LastByTxid(live[..|live| - 1], txid);
      assert forall j :: 0 <= j < |live| - 1 ==> live[..|live| - 1][j] == live[j];
      r
  }

  function ToOutpoint(raw: RawUtxo): Outpoint {
    Outpoint(raw.txid, raw.vout, raw.scriptPubKey, raw.satoshis)
  }

  /** The unspent outputs handed to the library: each selected UTXO is
      looked up by its hash alone. */
  function ResolveAsWritten(selected: seq<Utxo>, live: seq<RawUtxo>): (r: seq<Outpoint>)
    requires forall u :: u in selected ==> IsLiveTxid(live, u.hash)
    ensures |r| == |selected|
    ensures forall i :: 0 <= i < |r| ==> r[i].txId == selected[i].hash
    ensures forall i :: 0 <= i < |r| ==>
              && IsLastWithTxid(live, LastIndexWithTxid(live, selected[i].hash), selected[i].hash)
              && r[i] == ToOutpoint(live[LastIndexWithTxid(live, selected[i].hash)])
  {
    seq(|selected|, i requires 0 <= i < |selected| => ToOutpoint(LastByTxid(live, selected[i].hash).value))
  }

  /** `generateTx` as written. `live` is the explorer's answer fetched at the
      start of the call and `candidates` the optional `utxos` argument. */
  function GenerateTxAsWritten(w: Wallet, to: string, amount: int, candidates: Option<seq<Utxo>>,
                               live: seq<RawUtxo>, sign: Signer): (r: Result<TxPayload, string>)
    ensures candidates.None? ==> r == Failure(MissingCandidates)
    ensures candidates.Some? ==>
      (r.Failure? <==> Select(AllowedAsWritten(candidates.value, live), amount).Failure?)
    ensures r.Failure? && candidates.Some? ==> r.error == InsufficientAmount
    ensures r.Success? ==> r.value.derivationPath == w.pathParts
    ensures r.Success? ==>
      r.value.tx == sign(ResolveAsWritten(Select(AllowedAsWritten(candidates.value, live), amount).value, live), to, amount, w.privateKey)
  {
    if candidates.None? then Failure(MissingCandidates)
    else
      var allowed := AllowedAsWritten(candidates.value, live);
      var selected :- Select(allowed, amount);
      assert forall u :: u in selected ==> u in allowed;
      Success(TxPayload(w.pathParts, sign(ResolveAsWritten(selected, live), to, amount, w.privateKey)))
  }

  /** Two outputs of one transaction, both live and both selected, are
      handed to the library as the same outpoint, and the first output is
      never spent. */
  lemma ResolveAsWrittenDuplicatesOutpoint()
    ensures var live := [RawUtxo("t", 0, 100, 1, "s", 100), RawUtxo("t", 1, 50, 1, "s", 50)];
            var candidates := [Utxo("t", 100, 0, true), Utxo("t", 50, 1, true)];
            && AllowedAsWritten(candidates, live) == candidates
            && Select(candidates, 120) == Success(candidates)
            && ResolveAsWritten(candidates, live) == [Outpoint("t", 1, "s", 50), Outpoint("t", 1, "s", 50)]
  {
    var live := [RawUtxo("t", 0, 100, 1, "s", 100), RawUtxo("t", 1, 50, 1, "s", 50)];
    var candidates := [Utxo("t", 100, 0, true), Utxo("t", 50, 1, true)];
    assert IsLiveTxid(live, "t") by { assert live[0].txid == "t"; }
    assert Filter(candidates[1..][1..], (u: Utxo) => IsLiveTxid(live, u.hash)) == [];
    assert Filter(candidates[1..], (u: Utxo) => IsLiveTxid(live, u.hash)) == candidates[1..];
    assert AllowedAsWritten(candidates, live) == candidates;
    PrefixTotalStep(candidates, 0);
    PrefixTotalStep(candidates, 1);
    assert candidates[..2] == candidates;
  }

  // ---------------------------------------------------------------------
  // generateTx corrected: live UTXOs keyed by (txid, vout)

  predicate IsLiveOutpoint(live: seq<RawUtxo>, u: Utxo) {
    exists j :: 0 <= j < |live| && live[j].txid == u.hash && live[j].vout == u.index
  }

  /** Candidates that are themselves live outputs, in candidate order. */
  function Allowed(candidates: seq<Utxo>, live: seq<RawUtxo>): (r: seq<Utxo>)
    ensures forall u :: u in r <==> u in candidates && IsLiveOutpoint(live, u)
    ensures forall u :: multiset(r)[u] == if IsLiveOutpoint(live, u) then multiset(candidates)[u] else 0
    ensures IsSubsequence(r, candidates)
  {
    Filter(candidates, (u: Utxo) => IsLiveOutpoint(live, u))
  }

  /** The first live entry for the candidate's own output. */
  function FindOutput(live: seq<RawUtxo>, u: Utxo): (r: Option<RawUtxo>)
    ensures r.Some? <==> IsLiveOutpoint(live, u)
    ensures r.Some? ==> r.value in live && r.value.txid == u.hash && r.value.vout == u.index
  {
    if |live| == 0 then None
    else if live[0].txid == u.hash && live[0].vout == u.index then Some(live[0])
    else
      var r := FindOutput(live[1..], u);
      assert forall j :: 0 < j < |live| ==> live[1..][j - 1] == live[j];
      r
  }

  /** Each selected UTXO resolved to its own live output. */
  function Resolve(selected: seq<Utxo>, live: seq<RawUtxo>): (r: seq<Outpoint>)
    requires forall u :: u in selected ==> IsLiveOutpoint(live, u)
    ensures |r| == |selected|
    ensures forall i :: 0 <= i < |r| ==>
      r[i].txId == selected[i].hash && r[i].outputIndex == selected[i].index
      && exists j :: 0 <= j < |live| && ToOutpoint(live[j]) == r[i]
  {
    seq(|selected|, i requires 0 <= i < |selected| => ToOutpoint(FindOutput(live, selected[i]).value))
  }

  /** Distinct selected outputs are spent as distinct inputs. */
  lemma ResolveKeepsOutpointsDistinct(selected: seq<Utxo>, live: seq<RawUtxo>, i: nat, j: nat)
    requires forall u :: u in selected ==> IsLiveOutpoint(live, u)
    requires i < j < |selected|
    requires (selected[i].hash, selected[i].index) != (selected[j].hash, selected[j].index)
    ensures Resolve(selected, live)[i] != Resolve(selected, live)[j]
  {
  }

  /** `generateTx` with candidates matched and resolved by their own output. */
  function GenerateTx(w: Wallet, to: string, amount: int, candidates: Option<seq<Utxo>>,
                      live: seq<RawUtxo>, sign: Signer): (r: Result<TxPayload, string>)
    ensures candidates.None? ==> r == Failure(MissingCandidates)
    ensures candidates.Some? ==>
      (r.Failure? <==> Select(Allowed(candidates.value, live), amount).Failure?)
    ensures r.Failure? && candidates.Some? ==> r.error == InsufficientAmount
    ensures r.Success? ==> r.value.derivationPath == w.pathParts
    ensures r.Success? ==>
      r.value.tx == sign(Resolve(Select(Allowed(candidates.value, live), amount).value, live), to, amount, w.privateKey)
  {
    if candidates.None? then Failure(MissingCandidates)
    else
      var allowed := Allowed(candidates.value, live);
      var selected :- Select(allowed, amount);
      assert forall u :: u in selected ==> u in allowed;
      Success(TxPayload(w.pathParts, sign(Resolve(selected, live), to, amount, w.privateKey)))
  }

  /** On the input that shows the duplicate, the corrected resolution spends
      both outputs. */
  lemma ResolveSpendsEachOutput()
    ensures var live := [RawUtxo("t", 0, 100, 1, "s", 100), RawUtxo("t", 1, 50, 1, "s", 50)];
            var candidates := [Utxo("t", 100, 0, true), Utxo("t", 50, 1, true)];
            && Allowed(candidates, live) == candidates
            && Resolve(candidates, live) == [Outpoint("t", 0, "s", 100), Outpoint("t", 1, "s", 50)]
  {
    var live := [RawUtxo("t", 0, 100, 1, "s", 100), RawUtxo("t", 1, 50, 1, "s", 50)];
    var candidates := [Utxo("t", 100, 0, true), Utxo("t", 50, 1, true)];
    assert IsLiveOutpoint(live, candidates[0]) by { assert live[0].txid == "t" && live[0].vout == 0; }
    assert IsLiveOutpoint(live, candidates[1]) by { assert live[1].txid == "t" && live[1].vout == 1; }
    assert Filter(candidates[1..][1..], (u: Utxo) => IsLiveOutpoint(live, u)) == [];
    assert Filter(candidates[1..], (u: Utxo) => IsLiveOutpoint(live, u)) == candidates[1..];
    assert FindOutput(live, candidates[1]) == Some(live[1]);
  }

  // ---------------------------------------------------------------------
  // Broadcast

  /** Every submission is a POST to this prefix followed by the
      re-serialized transaction. */
  const SendRawTransactionPath: string := "/rawtransactions/sendRawTransaction/"

  /** `broadcastTx`: `decoded` is the library's parse of the hex and
      `post(path)` the HTTP status the endpoint answers to a POST of
      `path`; only status 200 counts as acknowledged. */
  function BroadcastTx(decoded: Result<DecodedTx, string>, post: string -> int): (r: Result<string, string>)
    ensures decoded.Failure? ==> r == Failure(decoded.error)
    ensures decoded.Success? ==>
              (r.Success? <==> post(SendRawTransactionPath + decoded.value.serialized) == 200)
    ensures r.Success? ==> r.value == decoded.value.id
    ensures decoded.Success? && post(SendRawTransactionPath + decoded.value.serialized) != 200 ==>
              r == Failure(SendFailed)
  {
    var tx :- decoded;
    var acknowledged := post(SendRawTransactionPath + tx.serialized) == 200;
    if acknowledged then Success(tx.id) else Failure(SendFailed)
  }

  /** Partner of `BroadcastTx`: exactly one POST matters, the one to the
      send path of this transaction; endpoints that agree on it give the
      same outcome, whatever they answer elsewhere. */
  lemma BroadcastPostsOnlySendPath(decoded: Result<DecodedTx, string>, post1: string -> int, post2: string -> int)
    requires decoded.Success? ==>
               post1(SendRawTransactionPath + decoded.value.serialized) == post2(SendRawTransactionPath + decoded.value.serialized)
    ensures BroadcastTx(decoded, post1) == BroadcastTx(decoded, post2)
  {
  }
}

=== FILE: extended_keys.dfy ===
/** The extended-key schema: each of `xpub`, `fpub`, `xprv`, `fprv` is
    optional and, when present, is trimmed and must be its own four-letter
    prefix followed by exactly 107 ASCII letters or digits. */
module ExtendedKeys {
  import opened Wrappers
  import opened Text

  datatype KeyKind = Xpub | Fpub | Xprv | Fprv

  /** The four fields in the order the object schema declares them. */
  const FieldOrder: seq<KeyKind> := [Xpub, Fpub, Xprv, Fprv]

  const BodyLength: nat := 107

  function Prefix(kind: KeyKind): (p: string)
    ensures |p| == 4
  {
    match kind
    case Xpub => "xpub"
    case Fpub => "fpub"
    case Xprv => "xprv"
    case Fprv => "fprv"
  }

  /** The workspace's extended keys; every field may be absent. */
  datatype ExtendedKeys = ExtendedKeys(xpub: Option<string>, fpub: Option<string>, xprv: Option<string>, fprv: Option<string>)

  function Field(keys: ExtendedKeys, kind: KeyKind): Option<string> {
    match kind
    case Xpub => keys.xpub
    case Fpub => keys.fpub
    case Xprv => keys.xprv
    case Fprv => keys.fprv
  }

  predicate IsAlphanumeric(c: char) {
    ('0' <= c <= '9') || ('a' <= c <= 'z') || ('A' <= c <= 'Z')
  }

  /** The language of `^<prefix>[0-9a-zA-Z]{107}$` (no flags: the anchors
      are the ends of the string). */
  predicate InKeyLanguage(s: string, prefix: string) {
    && |s| == |prefix| + BodyLength
    && s[..|prefix|] == prefix
    && forall i :: |prefix| <= i < |s| ==> IsAlphanumeric(s[i])
  }

  function CountAlphanumeric(s: string): (n: nat)
    ensures n <= |s|
    ensures n == |s| <==> forall i :: 0 <= i < |s| ==> IsAlphanumeric(s[i])
  {
    if |s| == 0 then 0
    else if IsAlphanumeric(s[0]) then
      var n := 1 + CountAlphanumeric(s[1..]);
      assert forall i :: 0 < i < |s| ==> s[1..][i - 1] == s[i];
      n
    else
      assert !IsAlphanumeric(s[0]);
      CountAlphanumeric(s[1..])
  }

  /** The regular-expression test: the prefix, then a body made only of the
      character class, of exactly the quantified length. */
  function MatchesKeyRegex(s: string, prefix: string): (b: bool)
    ensures b <==> InKeyLanguage(s, prefix)
  {
    if |s| != |prefix| + BodyLength || !(prefix <= s) then false
    else
      var body := s[|prefix|..];
      assert forall i :: |prefix| <= i < |s| ==> body[i - |prefix|] == s[i];
      CountAlphanumeric(body) == |body|
  }

  /** `getExtendedKeySchema(prefix)` applied to one field. */
  function ParseKey(kind: KeyKind, v: Option<string>): (r: Result<Option<string>, string>)
    ensures v.None? ==> r == Success(None)
    ensures v.Some? ==> (r.Success? <==> InKeyLanguage(Trim(v.value), Prefix(kind)))
    ensures r.Success? && v.Some? ==> r.value == Some(Trim(v.value))
    ensures r.Failure? ==> r.error == "Invalid " + Prefix(kind)
  {
    match v
    case None => Success(None)
    case Some(s) =>
      var t := Trim(s);
      if MatchesKeyRegex(t, Prefix(kind)) then Success(Some(t)) else Failure("Invalid " + Prefix(kind))
  }

  /** Every accepted key is 111 characters long and starts with its prefix. */
  lemma AcceptedKeyShape(kind: KeyKind, s: string)
    requires ParseKey(kind, Some(s)).Success?
    ensures var t := ParseKey(kind, Some(s)).value.value;
            |t| == 4 + BodyLength && Prefix(kind) <= t
  {
  }

  /** A value accepted for one field is rejected for every other field. */
  lemma FieldsAreDisjoint(k1: KeyKind, k2: KeyKind, s: string)
    requires k1 != k2
    requires ParseKey(k1, Some(s)).Success?
    ensures ParseKey(k2, Some(s)) == Failure("Invalid " + Prefix(k2))
  {
    var t := Trim(s);
    assert t[..4] == Prefix(k1);
  }

  /** A failed field check as the object schema reports it. */
  datatype Issue = Issue(field: KeyKind, message: string)

  /** The issue one field contributes: none when its check passes. */
  function IssueOf(input: ExtendedKeys, k: KeyKind): (r: seq<Issue>)
    ensures |r| <= 1
    ensures |r| == 0 <==> ParseKey(k, Field(input, k)).Success?
    ensures |r| == 1 ==> r[0] == Issue(k, "Invalid " + Prefix(k))
  {
    match ParseKey(k, Field(input, k))
    case Success(_) => []
    case Failure(m) => [Issue(k, m)]
  }

  function IssuesOf(input: ExtendedKeys, fields: seq<KeyKind>): (issues: seq<Issue>)
    ensures forall i :: 0 <= i < |issues| ==>
      issues[i].field in fields && ParseKey(issues[i].field, Field(input, issues[i].field)).Failure?
      && issues[i].message == "Invalid " + Prefix(issues[i].field)
  {
    if |fields| == 0 then []
    else IssueOf(input, fields[0]) + IssuesOf(input, fields[1..])
  }

  /** Every failing field among `fields` is reported. */
  lemma {:induction false} IssuesOfCoversFailures(input: ExtendedKeys, fields: seq<KeyKind>, k: KeyKind)
    requires k in fields && ParseKey(k, Field(input, k)).Failure?
    ensures exists i :: 0 <= i < |IssuesOf(input, fields)| && IssuesOf(input, fields)[i].field == k
  {
    var head := IssueOf(input, fields[0]);
    var rest := IssuesOf(input, fields[1..]);
    var issues := IssuesOf(input, fields);
    assert issues == head + rest;
    if k == fields[0] {
      assert issues[0] == head[0];
    } else {
      assert k in fields[1..];
      IssuesOfCoversFailures(input, fields[1..], k);
      var j :| 0 <= j < |rest| && rest[j].field == k;
      assert issues[|head| + j] == rest[j];
    }
  }

  lemma EveryKindInFieldOrder(k: KeyKind)
    ensures k in FieldOrder
  {
    match k
    case Xpub => assert FieldOrder[0] == k;
    case Fpub => assert FieldOrder[1] == k;
    case Xprv => assert FieldOrder[2] == k;
    case Fprv => assert FieldOrder[3] == k;
  }

  lemma ReportsEveryFailure(input: ExtendedKeys)
    ensures forall k :: ParseKey(k, Field(input, k)).Failure? ==>
      exists i :: 0 <= i < |IssuesOf(input, FieldOrder)| && IssuesOf(input, FieldOrder)[i].field == k
  {
    forall k | ParseKey(k, Field(input, k)).Failure?
      ensures exists i :: 0 <= i < |IssuesOf(input, FieldOrder)| && IssuesOf(input, FieldOrder)[i].field == k
    {
      EveryKindInFieldOrder(k);
      IssuesOfCoversFailures(input, FieldOrder, k);
    }
  }

  /** The keys with every field replaced by its parsed (trimmed) value. */
  function Accepted(input: ExtendedKeys): ExtendedKeys
    requires forall k :: ParseKey(k, Field(input, k)).Success?
  {
    assert ParseKey(Xpub, Field(input, Xpub)).Success? && ParseKey(Fpub, Field(input, Fpub)).Success?;
    assert ParseKey(Xprv, Field(input, Xprv)).Success? && ParseKey(Fprv, Field(input, Fprv)).Success?;
    ExtendedKeys(
      ParseKey(Xpub, input.xpub).value, ParseKey(Fpub, input.fpub).value,
      ParseKey(Xprv, input.xprv).value, ParseKey(Fprv, input.fprv).value)
  }

  lemma AcceptedFields(input: ExtendedKeys)
    requires forall k :: ParseKey(k, Field(input, k)).Success?
    ensures forall k :: Field(Accepted(input), k) == ParseKey(k, Field(input, k)).value
  {
    forall k ensures Field(Accepted(input), k) == ParseKey(k, Field(input, k)).value {
      match k
      case Xpub =>
      case Fpub =>
      case Xprv =>
      case Fprv =>
    }
  }

  /** The `extendedKeys` object schema: every field is checked; the parse
      succeeds with the trimmed values only when all four pass, and
      otherwise reports one issue per failing field. */
  function ParseExtendedKeys(input: ExtendedKeys): (r: Result<ExtendedKeys, seq<Issue>>)
    ensures r.Success? <==> forall k :: ParseKey(k, Field(input, k)).Success?
    ensures r.Success? ==> forall k :: Field(r.value, k) == ParseKey(k, Field(input, k)).value
    ensures r.Failure? ==> |r.error| > 0
    ensures r.Failure? ==> forall i :: 0 <= i < |r.error| ==>
      ParseKey(r.error[i].field, Field(input, r.error[i].field)).Failure?
      && r.error[i].message == "Invalid " + Prefix(r.error[i].field)
    ensures r.Failure? ==> forall k :: ParseKey(k, Field(input, k)).Failure? ==>
      exists i :: 0 <= i < |r.error| && r.error[i].field == k
  {
    var issues := IssuesOf(input, FieldOrder);
    ReportsEveryFailure(input);
    if |issues| > 0 then
      var k := issues[0].field;
      assert ParseKey(k, Field(input, k)).Failure?;
      Failure(issues)
    else
      AcceptedFields(input);
      Success(Accepted(input))
  }
}

=== FILE: keys_modal.dfy ===
/** The key list of the keys dialog: every derivation of the selected row
    projected to its three key fields, those without a public key dropped,
    and the rest deduplicated by public key, keeping first occurrences. */
module KeysModal {
  import opened Wrappers
  import opened Seqs
  import Workspace

  /** The three key fields shown for a derivation. */
  datatype Key = Key(publicKey: Option<string>, privateKey: Option<string>, wif: Option<string>)

  function Project(d: Workspace.Derivation): Key {
    Key(d.publicKey, d.privateKey, d.wif)
  }

  /** JavaScript truthiness of the public key: present and non-empty. */
  predicate HasPublicKey(k: Key) {
    k.publicKey.Some? && |k.publicKey.value| > 0
  }

  /** `self.findIndex((t) => t.publicKey === pk)`: the first index holding
      `pk`, or -1 when there is none. */
  function FindIndex(s: seq<Key>, pk: Option<string>): (r: int)
    ensures -1 <= r < |s|
    ensures r >= 0 ==> s[r].publicKey == pk && forall i :: 0 <= i < r ==> s[i].publicKey != pk
    ensures r == -1 <==> forall i :: 0 <= i < |s| ==> s[i].publicKey != pk
  {
    if |s| == 0 then -1
    else if s[0].publicKey == pk then 0
    else
      var r := FindIndex(s[1..], pk);
      assert forall i :: 0 < i < |s| ==> s[1..][i - 1] == s[i];
      if r == -1 then -1 else r + 1
  }

  /** An entry is kept when it is the first entry holding its public key. */
  predicate IsFirstOccurrence(self: seq<Key>, index: nat)
    requires index < |self|
  {
    FindIndex(self, self[index].publicKey) == index
  }

  /** The index-aware `filter` of the dedupe, over the entries from `from`
      onwards. */
  function KeepFirst(self: seq<Key>, from: nat): seq<Key>
    requires from <= |self|
    decreases |self| - from
  {
    if from == |self| then []
    else if IsFirstOccurrence(self, from) then [self[from]] + KeepFirst(self, from + 1)
    else KeepFirst(self, from + 1)
  }

  /** No public key is held by two entries. */
  predicate DistinctKeys(ks: seq<Key>) {
    forall i, j :: 0 <= i < j < |ks| ==> ks[i].publicKey != ks[j].publicKey
  }

  /** The entries of `out` come in the order in which their public keys
      first occur in `self`. */
  predicate InFirstOccurrenceOrder(self: seq<Key>, out: seq<Key>) {
    forall i, j :: 0 <= i < j < |out| ==> FindIndex(self, out[i].publicKey) < FindIndex(self, out[j].publicKey)
  }

  /** Some entry holds the public key `pk`. */
  predicate ListsKey(ks: seq<Key>, pk: Option<string>) {
    exists j :: 0 <= j < |ks| && ks[j].publicKey == pk
  }

  /** Every kept entry is some entry at or after `from` that is the first
      occurrence of its public key. */
  lemma {:induction false} KeepFirstElements(self: seq<Key>, from: nat)
    requires from <= |self|
    ensures forall x :: x in KeepFirst(self, from) ==>
      exists m :: from <= m < |self| && x == self[m] && FindIndex(self, x.publicKey) == m
    decreases |self| - from
  {
    if from < |self| {
      KeepFirstElements(self, from + 1);
    }
  }

  lemma {:induction false} KeepFirstSubsequence(self: seq<Key>, from: nat)
    requires from <= |self|
    ensures IsSubsequence(KeepFirst(self, from), self[from..])
    decreases |self| - from
  {
    if from < |self| {
      KeepFirstSubsequence(self, from + 1);
      var rest := KeepFirst(self, from + 1);
      assert self[from..][1..] == self[from + 1..];
      if IsFirstOccurrence(self, from) {
        assert ([self[from]] + rest)[1..] == rest;
      }
    }
  }

  lemma {:induction false} KeepFirstNoDuplicates(self: seq<Key>, from: nat)
    requires from <= |self|
    ensures DistinctKeys(KeepFirst(self, from))
    decreases |self| - from
  {
    if from < |self| {
      KeepFirstNoDuplicates(self, from + 1);
      var rest := KeepFirst(self, from + 1);
      if IsFirstOccurrence(self, from) {
        KeepFirstElements(self, from + 1);
        forall y | y in rest ensures y.publicKey != self[from].publicKey {
          var m :| from + 1 <= m < |self| && y == self[m] && FindIndex(self, y.publicKey) == m;
        }
        ConsDistinct(self[from], rest);
      }
    }
  }

  lemma {:induction false} KeepFirstOrdered(self: seq<Key>, from: nat)
    requires from <= |self|
    ensures InFirstOccurrenceOrder(self, KeepFirst(self, from))
    ensures forall x :: x in KeepFirst(self, from) ==> from <= FindIndex(self, x.publicKey)
    decreases |self| - from
  {
    if from < |self| {
      KeepFirstOrdered(self, from + 1);
      var rest := KeepFirst(self, from + 1);
      if IsFirstOccurrence(self, from) {
        assert KeepFirst(self, from) == [self[from]] + rest;
        ConsOrdered(self, from, rest);
      } else {
        assert KeepFirst(self, from) == rest;
      }
    }
  }

  /** The first occurrence at `from` in front of keys that first occur
      later keeps the order. */
  lemma ConsOrdered(self: seq<Key>, from: nat, rest: seq<Key>)
    requires from < |self| && IsFirstOccurrence(self, from)
    requires InFirstOccurrenceOrder(self, rest)
    requires forall x :: x in rest ==> from + 1 <= FindIndex(self, x.publicKey)
    ensures InFirstOccurrenceOrder(self, [self[from]] + rest)
    ensures forall x :: x in [self[from]] + rest ==> from <= FindIndex(self, x.publicKey)
  {
    var rank := (x: Key) => FindIndex(self, x.publicKey);
    ConsIncreasing(rank, self[from], rest);
  }

  /** A head ranked below every element of a rank-increasing list keeps the
      list rank-increasing. */
  lemma ConsIncreasing(rank: Key -> int, head: Key, rest: seq<Key>)
    requires forall i, j :: 0 <= i < j < |rest| ==> rank(rest[i]) < rank(rest[j])
    requires forall x :: x in rest ==> rank(head) < rank(x)
    ensures forall i, j :: 0 <= i < j < |[head] + rest| ==> rank(([head] + rest)[i]) < rank(([head] + rest)[j])
  {
    var out := [head] + rest;
    forall i, j | 0 <= i < j < |out| ensures rank(out[i]) < rank(out[j]) {
      assert out[j] == rest[j - 1] && rest[j - 1] in rest;
      if i > 0 {
        assert out[i] == rest[i - 1];
      }
    }
  }

  /** Putting a key no entry holds in front keeps the keys distinct. */
  lemma ConsDistinct(x: Key, rest: seq<Key>)
    requires DistinctKeys(rest)
    requires forall y :: y in rest ==> y.publicKey != x.publicKey
    ensures DistinctKeys([x] + rest)
  {
    var out := [x] + rest;
    forall i, j | 0 <= i < j < |out| ensures out[i].publicKey != out[j].publicKey {
      assert out[j] == rest[j - 1];
      if i > 0 {
        assert out[i] == rest[i - 1];
      }
    }
  }

  /** A public key whose first occurrence lies at or after `from` is kept. */
  lemma {:induction false} KeepFirstCovers(self: seq<Key>, from: nat, m: nat)
    requires from <= m < |self|
    requires from <= FindIndex(self, self[m].publicKey)
    ensures ListsKey(KeepFirst(self, from), self[m].publicKey)
    decreases |self| - from
  {
    var f := FindIndex(self, self[m].publicKey);
    if f == from {
      assert KeepFirst(self, from)[0] == self[from];
    } else {
      KeepFirstCovers(self, from + 1, m);
      var rest := KeepFirst(self, from + 1);
      var j :| 0 <= j < |rest| && rest[j].publicKey == self[m].publicKey;
      var out := KeepFirst(self, from);
      assert out[|out| - |rest| + j] == rest[j];
    }
  }

  /** The dedupe by public key: no public key twice, first occurrences
      kept in their original order, and no public key lost. */
  function Dedupe(self: seq<Key>): (out: seq<Key>)
    ensures DistinctKeys(out)
    ensures forall x :: x in out ==> x in self && x == self[FindIndex(self, x.publicKey)]
    ensures IsSubsequence(out, self)
    ensures forall m :: 0 <= m < |self| ==> ListsKey(out, self[m].publicKey)
    ensures InFirstOccurrenceOrder(self, out)
  {
    KeepFirstOrdered(self, 0);
    KeepFirstElements(self, 0);
    KeepFirstSubsequence(self, 0);
    KeepFirstNoDuplicates(self, 0);
    assert self[0..] == self;
    DedupeCovers(self);
    KeepFirst(self, 0)
  }

  lemma DedupeCovers(self: seq<Key>)
    ensures forall m :: 0 <= m < |self| ==>
      ListsKey(KeepFirst(self, 0), self[m].publicKey)
  {
    forall m | 0 <= m < |self|
      ensures ListsKey(KeepFirst(self, 0), self[m].publicKey)
    {
      assert FindIndex(self, self[m].publicKey) != -1;
      KeepFirstCovers(self, 0, m);
    }
  }

  function Projected(derivations: seq<Workspace.Derivation>): (ks: seq<Key>)
    ensures |ks| == |derivations|
    ensures forall i :: 0 <= i < |ks| ==> ks[i] == Project(derivations[i])
  {
    seq(|derivations|, i requires 0 <= i < |derivations| => Project(derivations[i]))
  }

  /** `keys`: undefined without a row; otherwise the row's derivations
      projected, filtered on a truthy public key, and deduplicated. */
  function Keys(row: Option<seq<Workspace.Derivation>>): (keys: Option<seq<Key>>)
    ensures keys.None? <==> row.None?
    ensures keys.Some? ==> KeyListOf(row.value, keys.value)
  {
    match row
    case None => None
    case Some(derivations) =>
      var projected := Projected(derivations);
      var withKey := Filter(projected, HasPublicKey);
      var out := Dedupe(withKey);
      KeysInvariant(derivations, projected, withKey, out);
      Some(out)
  }

  /** What the dialog's list is, independently of how it is computed: an
      order-preserving selection of the projected derivations with a truthy
      public key, each the first one holding its public key, no public key
      twice, every truthy public key represented, and the keys in the order
      of their first occurrence. */
  ghost predicate KeyListOf(derivations: seq<Workspace.Derivation>, out: seq<Key>) {
    var projected := Projected(derivations);
    && IsSubsequence(out, projected)
    && (forall x :: x in out ==> HasPublicKey(x))
    && DistinctKeys(out)
    && (forall j :: 0 <= j < |out| ==>
          exists i :: 0 <= i < |derivations| && out[j] == Project(derivations[i])
            && forall i' :: 0 <= i' < i ==> derivations[i'].publicKey != out[j].publicKey)
    && (forall i :: 0 <= i < |derivations| && HasPublicKey(Project(derivations[i])) ==>
          ListsKey(out, derivations[i].publicKey))
    && InFirstOccurrenceOrder(projected, out)
  }

  lemma KeysInvariant(derivations: seq<Workspace.Derivation>, projected: seq<Key>, withKey: seq<Key>, out: seq<Key>)
    requires projected == Projected(derivations)
    requires withKey == Filter(projected, HasPublicKey)
    requires out == Dedupe(withKey)
    ensures KeyListOf(derivations, out)
  {
    SubsequenceTransitive(out, withKey, projected);
    KeysAreFirst(derivations, projected, withKey, out);
    KeysCover(derivations, projected, withKey, out);
    KeysInOrder(projected, withKey, out);
  }

  /** Each listed entry is the projection of the first derivation with its
      public key. */
  lemma KeysAreFirst(derivations: seq<Workspace.Derivation>, projected: seq<Key>, withKey: seq<Key>, out: seq<Key>)
    requires projected == Projected(derivations)
    requires withKey == Filter(projected, HasPublicKey)
    requires out == Dedupe(withKey)
    ensures forall j :: 0 <= j < |out| ==>
              exists i :: 0 <= i < |derivations| && out[j] == Project(derivations[i])
                && forall i' :: 0 <= i' < i ==> derivations[i'].publicKey != out[j].publicKey
  {
    forall j | 0 <= j < |out|
      ensures exists i :: 0 <= i < |derivations| && out[j] == Project(derivations[i])
                && forall i' :: 0 <= i' < i ==> derivations[i'].publicKey != out[j].publicKey
    {
      FirstInProjection(derivations, projected, withKey, out[j]);
    }
  }

  /** Every derivation with a truthy public key has its key listed. */
  lemma KeysCover(derivations: seq<Workspace.Derivation>, projected: seq<Key>, withKey: seq<Key>, out: seq<Key>)
    requires projected == Projected(derivations)
    requires withKey == Filter(projected, HasPublicKey)
    requires out == Dedupe(withKey)
    ensures forall i :: 0 <= i < |derivations| && HasPublicKey(Project(derivations[i])) ==>
              ListsKey(out, derivations[i].publicKey)
  {
    forall i | 0 <= i < |derivations| && HasPublicKey(Project(derivations[i]))
      ensures ListsKey(out, derivations[i].publicKey)
    {
      assert projected[i] in withKey;
      var m :| 0 <= m < |withKey| && withKey[m] == projected[i];
    }
  }

  /** The dedupe's order of first occurrences among the keyed entries is
      their order of first occurrence among all projected entries. */
  lemma KeysInOrder(projected: seq<Key>, withKey: seq<Key>, out: seq<Key>)
    requires withKey == Filter(projected, HasPublicKey)
    requires out == Dedupe(withKey)
    ensures InFirstOccurrenceOrder(projected, out)
  {
    forall i, j | 0 <= i < j < |out|
      ensures FindIndex(projected, out[i].publicKey) < FindIndex(projected, out[j].publicKey)
    {
      assert out[i] in withKey && out[j] in withKey;
      assert out[i] in projected && out[j] in projected;
      FilterFirstOrder(projected, out[i].publicKey, out[j].publicKey);
    }
  }

  /** For two truthy public keys that occur, filtering on a truthy key
      keeps the order of their first occurrences. */
  lemma {:induction false} FilterFirstOrder(s: seq<Key>, p: Option<string>, q: Option<string>)
    requires p.Some? && |p.value| > 0 && q.Some? && |q.value| > 0
    requires FindIndex(s, p) >= 0 && FindIndex(s, q) >= 0
    ensures var kept := Filter(s, HasPublicKey);
            FindIndex(kept, p) < FindIndex(kept, q) <==> FindIndex(s, p) < FindIndex(s, q)
  {
    var kept := Filter(s, HasPublicKey);
    FilterStep(s);
    FilterKeepsFirst(s, p);
    FilterKeepsFirst(s, q);
    if s[0].publicKey == p || s[0].publicKey == q {
      assert kept[0] == s[0];
    } else {
      FindIndexPastHead(s, p);
      FindIndexPastHead(s, q);
      FilterFirstOrder(s[1..], p, q);
      if HasPublicKey(s[0]) {
        assert kept[1..] == Filter(s[1..], HasPublicKey);
        FindIndexPastHead(kept, p);
        FindIndexPastHead(kept, q);
      }
    }
  }

  /** An entry kept by the dedupe is the first projected entry with its
      public key. */
  lemma FirstInProjection(derivations: seq<Workspace.Derivation>, projected: seq<Key>, withKey: seq<Key>, x: Key)
    requires projected == Projected(derivations)
    requires withKey == Filter(projected, HasPublicKey)
    requires x in Dedupe(withKey)
    ensures exists i :: 0 <= i < |derivations| && x == Project(derivations[i])
              && forall i' :: 0 <= i' < i ==> derivations[i'].publicKey != x.publicKey
  {
    var i := FindIndex(projected, x.publicKey);
    FilterKeepsFirst(projected, x.publicKey);
    assert x == projected[i];
    assert forall i' :: 0 <= i' < i ==> derivations[i'].publicKey == projected[i'].publicKey;
  }

  /** Filtering on a truthy public key does not change which entry comes
      first for a truthy public key. */
  lemma {:induction false} FilterKeepsFirst(s: seq<Key>, pk: Option<string>)
    requires pk.Some? && |pk.value| > 0
    requires FindIndex(s, pk) >= 0
    ensures var kept := Filter(s, HasPublicKey);
            FindIndex(kept, pk) >= 0 && kept[FindIndex(kept, pk)] == s[FindIndex(s, pk)]
  {
    var kept := Filter(s, HasPublicKey);
    var rest := Filter(s[1..], HasPublicKey);
    FilterStep(s);
    if s[0].publicKey == pk {
      assert kept[0] == s[0];
    } else {
      FindIndexPastHead(s, pk);
      FilterKeepsFirst(s[1..], pk);
      if HasPublicKey(s[0]) {
        FindIndexPastHead(kept, pk);
        assert kept[1..] == rest;
      }
    }
  }

  lemma FilterStep(s: seq<Key>)
    requires |s| > 0
    ensures Filter(s, HasPublicKey) ==
            if HasPublicKey(s[0]) then [s[0]] + Filter(s[1..], HasPublicKey) else Filter(s[1..], HasPublicKey)
  {
  }

  /** Past a head that does not hold `pk`, the first index of `pk` is one
      more than in the tail. */
  lemma FindIndexPastHead(s: seq<Key>, pk: Option<string>)
    requires |s| > 0 && s[0].publicKey != pk
    ensures FindIndex(s, pk) == (if FindIndex(s[1..], pk) == -1 then -1 else FindIndex(s[1..], pk) + 1)
    ensures FindIndex(s, pk) >= 0 ==> s[FindIndex(s, pk)] == s[1..][FindIndex(s[1..], pk)]
  {
  }
}

=== FILE: relay.dfy ===
/** The relay page: the title shown for an inbound relay request, and
    whether the missing-keys warning is displayed. */
module Relay {
  import opened Wrappers
  import opened ExtendedKeys

  /** The decoded inbound relay parameters; only the action is inspected. */
  datatype RelayRequestParams = RelayRequestParams(action: string)

  const ImportAction := "import"
  const ImportTitle := "Extended public keys & wallet"
  const TxCreateTitle := "New transaction request"
  const TxBroadcastTitle := "Signed transaction"

  /** The action names the switch dispatches on. The two transaction action
      constants are defined outside this page and are parameters here. */
  datatype Actions = Actions(txCreate: string, txBroadcast: string)

  /** `getRxTitle`: the cases are tried in the switch's order, so when two
      action constants coincide the earlier case wins; anything else
      (including absent parameters) is `undefined`. */
  function GetRxTitle(params: Option<RelayRequestParams>, actions: Actions): (title: Option<string>)
    ensures title.None? <==>
      params.None? || params.value.action !in {ImportAction, actions.txCreate, actions.txBroadcast}
    ensures params.Some? && params.value.action == ImportAction ==> title == Some(ImportTitle)
    ensures title.Some? ==> title.value in {ImportTitle, TxCreateTitle, TxBroadcastTitle}
  {
    match params
    case None => None
    case Some(p) =>
      if p.action == ImportAction then Some(ImportTitle)
      else if p.action == actions.txCreate then Some(TxCreateTitle)
      else if p.action == actions.txBroadcast then Some(TxBroadcastTitle)
      else None
  }

  /** The action a title announces, when the three actions are distinct. */
  function ActionOfTitle(title: string, actions: Actions): Option<string> {
    if title == ImportTitle then Some(ImportAction)
    else if title == TxCreateTitle then Some(actions.txCreate)
    else if title == TxBroadcastTitle then Some(actions.txBroadcast)
    else None
  }

  predicate DistinctActions(actions: Actions) {
    ImportAction != actions.txCreate && ImportAction != actions.txBroadcast
    && actions.txCreate != actions.txBroadcast
  }

  /** With distinct actions the classification loses nothing: each recognised
      action is recovered from its title, and each title names exactly one
      action. */
  lemma TitleIdentifiesAction(action: string, actions: Actions)
    requires DistinctActions(actions)
    ensures var title := GetRxTitle(Some(RelayRequestParams(action)), actions);
            title.Some? ==> ActionOfTitle(title.value, actions) == Some(action)
    ensures action == actions.txCreate ==>
              GetRxTitle(Some(RelayRequestParams(action)), actions) == Some(TxCreateTitle)
    ensures action == actions.txBroadcast ==>
              GetRxTitle(Some(RelayRequestParams(action)), actions) == Some(TxBroadcastTitle)
  {
  }

  /** JavaScript truthiness of an optional string: present and non-empty. */
  predicate Truthy(s: Option<string>) {
    s.Some? && |s.value| > 0
  }

  /** `hasExtendedPublicKeys`, reading `xpub`/`fpub` from the workspace's
      keys or from `{}` when there are none. */
  function HasExtendedPublicKeys(keys: Option<ExtendedKeys>): (b: bool)
    ensures b <==> keys.Some? && (Truthy(Field(keys.value, Xpub)) || Truthy(Field(keys.value, Fpub)))
  {
    var k := keys.GetOr(ExtendedKeys(None, None, None, None));
    Truthy(k.xpub) || Truthy(k.fpub)
  }

  /** The error paragraph is rendered exactly when the workspace holds
      neither a non-empty `xpub` nor a non-empty `fpub`. */
  function ShowsMissingKeysWarning(keys: Option<ExtendedKeys>): (shown: bool)
    ensures shown <==> keys.None? || (!Truthy(Field(keys.value, Xpub)) && !Truthy(Field(keys.value, Fpub)))
  {
    !HasExtendedPublicKeys(keys)
  }

  /** Keys that passed the schema with a present xpub clear the warning:
      an accepted key is never empty. */
  lemma AcceptedXpubClearsWarning(input: ExtendedKeys)
    requires ParseExtendedKeys(input).Success?
    requires input.xpub.Some? || input.fpub.Some?
    ensures !ShowsMissingKeysWarning(Some(ParseExtendedKeys(input).value))
  {
    var parsed := ParseExtendedKeys(input).value;
    if input.xpub.Some? {
      assert Field(parsed, Xpub) == ParseKey(Xpub, Field(input, Xpub)).value;
      AcceptedKeyShape(Xpub, input.xpub.value);
    } else {
      assert Field(parsed, Fpub) == ParseKey(Fpub, Field(input, Fpub)).value;
      AcceptedKeyShape(Fpub, input.fpub.value);
    }
  }
}

=== FILE: seqs.dfy ===
/** Sequence helpers shared by the modules: order-preserving filtering and
    the subsequence relation it establishes. */
module Seqs {

  /** `a` can be obtained from `b` by deleting elements, keeping order. */
  predicate IsSubsequence<T(==)>(a: seq<T>, b: seq<T>)
    decreases |b|
  {
    if |a| == 0 then true
    else if |b| == 0 then false
    else (a[0] == b[0] && IsSubsequence(a[1..], b[1..])) || IsSubsequence(a, b[1..])
  }

  /** `s.filter(keep)`: every occurrence of a kept element survives, in
      order, and nothing else does. */
  function Filter<T(==,!new)>(s: seq<T>, keep: T -> bool): (r: seq<T>)
    ensures |r| <= |s|
    ensures forall x :: x in r <==> x in s && keep(x)
    ensures forall x :: multiset(r)[x] == if keep(x) then multiset(s)[x] else 0
    ensures IsSubsequence(r, s)
  {
    if |s| == 0 then []
    else
      var rest := Filter(s[1..], keep);
      assert s == [s[0]] + s[1..];
      assert multiset(s) == multiset{s[0]} + multiset(s[1..]);
      assert forall x :: x in s <==> x == s[0] || x in s[1..];
      if keep(s[0]) then
        var r := [s[0]] + rest;
        assert r[1..] == rest;
        assert multiset(r) == multiset{s[0]} + multiset(rest);
        r
      else rest
  }

  /** The subsequence relation is transitive. */
  lemma {:induction false} SubsequenceTransitive<T>(a: seq<T>, b: seq<T>, c: seq<T>)
    requires IsSubsequence(a, b) && IsSubsequence(b, c)
    ensures IsSubsequence(a, c)
    decreases |c|
  {
    if |a| == 0 {
    } else if a[0] == b[0] && IsSubsequence(a[1..], b[1..]) {
      if b[0] == c[0] && IsSubsequence(b[1..], c[1..]) {
        SubsequenceTransitive(a[1..], b[1..], c[1..]);
      } else {
        SubsequenceTransitive(a, b, c[1..]);
      }
    } else {
      if b[0] == c[0] && IsSubsequence(b[1..], c[1..]) {
        SubsequenceTransitive(a, b[1..], c[1..]);
      } else {
        SubsequenceTransitive(a, b, c[1..]);
      }
    }
  }
}

=== FILE: server.dfy ===
/** The derivation server's request handling: query-parameter defaulting,
    request validation in the order the handler evaluates it, the inclusive
    index loop of key derivation, the public-path format, and the
    storing, filtering and listing of recovered extended keys. The key
    store is a value passed in and returned; the recovery routine and the
    per-asset helper classes are parameters. */
module Server {
  import opened Wrappers
  import opened Text

  /** The exception classes whose difference the handlers observe. */
  datatype ExcKind = Exception | KeyError | ValueError | TypeError | RecoveryException

  datatype PyError = PyError(kind: ExcKind, message: string)

  /** `request.args`: the query string's parameters. */
  type Args = map<string, string>

  /** Store keys of the four extended keys. The store module defining these
      names is not part of this model; the names are placeholders. */
  const XPRV := "xprv"
  const FPRV := "fprv"
  const XPUB := "xpub"
  const FPUB := "fpub"

  /** The order in which a recovery stores the keys. */
  const StoredKeys: seq<string> := [XPRV, FPRV, XPUB, FPUB]

  datatype AssetType = Ecdsa | Eddsa | OtherType(name: string)

  /** A per-asset helper class, reduced to what the handlers read of it. */
  datatype HelperClass = HelperClass(name: string, coinId: int)

  datatype AssetInfo = AssetInfo(assetType: AssetType, helper: HelperClass)

  /** The global state: asset descriptions and stored extended keys. */
  datatype Store = Store(assets: map<string, AssetInfo>, keys: map<string, string>)

  // ---------------------------------------------------------------------
  // Parameters

  /** `not param`: the parameter is absent or the empty string. */
  predicate Blank(param: Option<string>) {
    param.None? || param.value == ""
  }

  /** `get_parameter(k, default)`. A blank parameter is an error when there
      is no default, and is replaced by the default when the default is
      truthy; an empty-string default leaves the blank parameter as it is. */
  function GetParameter(args: Args, k: string, fallback: Option<string>): (r: Result<Option<string>, PyError>)
    ensures r.Failure? <==> (k !in args || args[k] == "") && fallback.None?
    ensures r.Failure? ==> r.error == PyError(Exception, "No parameter named " + k + " in request")
    ensures k in args && args[k] != "" ==> r == Success(Some(args[k]))
    ensures (k !in args || args[k] == "") && fallback.Some? && fallback.value != "" ==> r == Success(fallback)
    ensures (k !in args || args[k] == "") && fallback == Some("") ==>
              r == Success(if k in args then Some("") else None)
  {
    var param := if k in args then Some(args[k]) else None;
    if Blank(param) && fallback.None? then Failure(PyError(Exception, "No parameter named " + k + " in request"))
    else if Blank(param) && fallback.value != "" then Success(fallback)
    else Success(param)
  }

  /** With a truthy default the parameter is never blank. */
  lemma GetParameterNeverBlank(args: Args, k: string, fallback: Option<string>)
    requires fallback.None? || fallback.value != ""
    requires GetParameter(args, k, fallback).Success?
    ensures !Blank(GetParameter(args, k, fallback).value)
  {
  }

  /** `int(v)` for a parameter value. */
  function PyInt(v: Option<string>): (r: Result<int, PyError>)
    ensures v.None? ==> r.Failure? && r.error.kind == TypeError
    ensures v.Some? ==> (r.Success? <==> ParsePyInt(v.value).Success?)
    ensures v.Some? && r.Success? ==> r.value == ParsePyInt(v.value).value
    ensures v.Some? && r.Failure? ==> r.error.kind == ValueError
  {
    match v
    case None => Failure(PyError(TypeError, "int() argument must be a string, a bytes-like object or a real number, not 'NoneType'"))
    case Some(s) =>
      match ParsePyInt(s)
      case Success(n) => Success(n)
      case Failure(m) => Failure(PyError(ValueError, m))
  }

  /** `int(get_parameter(k, default))`. */
  function IntParameter(args: Args, k: string, fallback: Option<string>): Result<int, PyError> {
    var v :- GetParameter(args, k, fallback);
    PyInt(v)
  }

  /** `get_parameter(k, "False") in ["True", "true"]`. */
  function FlagParameter(args: Args, k: string): (b: bool)
    ensures b <==> k in args && (args[k] == "True" || args[k] == "true")
  {
    match GetParameter(args, k, Some("False"))
    case Success(v) => v == Some("True") || v == Some("true")
    case Failure(_) => false
  }

  // ---------------------------------------------------------------------
  // Unpacking a derivation request

  /** What `unpack_request` returns (the helper instance is left out; the
      helper class stands for it). */
  datatype Request = Request(
    helper: HelperClass,
    key: string,
    asset: string,
    account: int,
    change: int,
    index: int,
    testnet: bool,
    useXpub: bool,
    legacy: bool)

  /** The stored key an asset type derives from: XPRV for ECDSA, FPRV for
      EdDSA, a KeyError for anything else. */
  function DataKey(t: AssetType): (r: Result<string, PyError>)
    ensures t.Ecdsa? <==> r == Success(XPRV)
    ensures t.Eddsa? <==> r == Success(FPRV)
    ensures t.OtherType? <==> r.Failure?
    ensures t.OtherType? ==> r == Failure(PyError(KeyError, "Unknown key type - " + t.name + "."))
  {
    match t
    case Ecdsa => Success(XPRV)
    case Eddsa => Success(FPRV)
    case OtherType(name) => Failure(PyError(KeyError, "Unknown key type - " + name + "."))
  }

  /** Every parameter reader of `unpack_request` returns without raising:
      `asset`, then `int` of `account`, `change` and `index`. */
  predicate ReadersSucceed(args: Args) {
    && GetParameter(args, "asset", None).Success?
    && IntParameter(args, "account", None).Success?
    && IntParameter(args, "change", Some("0")).Success?
    && IntParameter(args, "index", Some("0")).Success?
  }

  /** The request parameters after parsing and the sign checks. */
  datatype Params = Params(asset: string, account: nat, change: nat, index: nat,
                           testnet: bool, useXpub: bool, legacy: bool)

  /** The parameter half of `unpack_request`: read `asset`, `account`,
      `change`, `index` and the three flags in that order, then reject a
      negative account, change or index (in that order). No store lookup
      happens here. */
  function ParseParams(args: Args): (r: Result<Params, PyError>)
    ensures r.Success? <==>
              && ReadersSucceed(args)
              && IntParameter(args, "account", None).value >= 0
              && IntParameter(args, "change", Some("0")).value >= 0
              && IntParameter(args, "index", Some("0")).value >= 0
    ensures GetParameter(args, "asset", None).Failure? ==>
              r == Failure(GetParameter(args, "asset", None).error)
    ensures GetParameter(args, "asset", None).Success? && IntParameter(args, "account", None).Failure? ==>
              r == Failure(IntParameter(args, "account", None).error)
    ensures GetParameter(args, "asset", None).Success? && IntParameter(args, "account", None).Success?
            && IntParameter(args, "change", Some("0")).Failure? ==>
              r == Failure(IntParameter(args, "change", Some("0")).error)
    ensures GetParameter(args, "asset", None).Success? && IntParameter(args, "account", None).Success?
            && IntParameter(args, "change", Some("0")).Success? && IntParameter(args, "index", Some("0")).Failure? ==>
              r == Failure(IntParameter(args, "index", Some("0")).error)
    ensures ReadersSucceed(args) && IntParameter(args, "account", None).value < 0 ==>
              r == Failure(PyError(Exception, "Invalid account: " + IntToString(IntParameter(args, "account", None).value)))
    ensures ReadersSucceed(args) && IntParameter(args, "account", None).value >= 0
            && IntParameter(args, "change", Some("0")).value < 0 ==>
              r == Failure(PyError(Exception, "Invalid change: " + IntToString(IntParameter(args, "change", Some("0")).value)))
    ensures ReadersSucceed(args) && IntParameter(args, "account", None).value >= 0
            && IntParameter(args, "change", Some("0")).value >= 0 && IntParameter(args, "index", Some("0")).value < 0 ==>
              r == Failure(PyError(Exception, "Invalid index: " + IntToString(IntParameter(args, "index", Some("0")).value)))
    ensures r.Success? ==> "asset" in args && r.value.asset == args["asset"] && r.value.asset != ""
    ensures r.Success? ==>
              && IntParameter(args, "account", None) == Success(r.value.account as int)
              && IntParameter(args, "change", Some("0")) == Success(r.value.change as int)
              && IntParameter(args, "index", Some("0")) == Success(r.value.index as int)
    ensures r.Success? ==>
              && r.value.testnet == FlagParameter(args, "testnet")
              && r.value.useXpub == FlagParameter(args, "xpub")
              && r.value.legacy == FlagParameter(args, "legacy")
  {
    var asset :- GetParameter(args, "asset", None);
    var account :- IntParameter(args, "account", None);
    var change :- IntParameter(args, "change", Some("0"));
    var index :- IntParameter(args, "index", Some("0"));
    var testnet := FlagParameter(args, "testnet");
    var useXpub := FlagParameter(args, "xpub");
    var legacy := FlagParameter(args, "legacy");
    if account < 0 then Failure(PyError(Exception, "Invalid account: " + IntToString(account)))
    else if change < 0 then Failure(PyError(Exception, "Invalid change: " + IntToString(change)))
    else if index < 0 then Failure(PyError(Exception, "Invalid index: " + IntToString(index)))
    else Success(Params(asset.value, account, change, index, testnet, useXpub, legacy))
  }

  /** The store half of `unpack_request`: the asset must be known, its type
      picks the key family, and that key must be stored. */
  function ResolveKey(p: Params, store: Store): (r: Result<Request, PyError>)
    ensures r.Success? <==>
              && p.asset in store.assets
              && DataKey(store.assets[p.asset].assetType).Success?
              && DataKey(store.assets[p.asset].assetType).value in store.keys
    ensures p.asset !in store.assets ==> r == Failure(PyError(Exception, "Unknown asset: " + p.asset))
    ensures r.Success? ==>
              var info := store.assets[p.asset];
              && r.value.helper == info.helper
              && r.value.key == store.keys[DataKey(info.assetType).value]
              && r.value.asset == p.asset
              && r.value.account == p.account && r.value.change == p.change && r.value.index == p.index
              && r.value.testnet == p.testnet && r.value.useXpub == p.useXpub && r.value.legacy == p.legacy
  {
    if p.asset !in store.assets then Failure(PyError(Exception, "Unknown asset: " + p.asset))
    else
      var info := store.assets[p.asset];
      var dataKey :- DataKey(info.assetType);
      if dataKey !in store.keys then
        Failure(PyError(KeyError, "Missing the " + dataKey + " - make sure you finished setup"))
      else
        Success(Request(info.helper, store.keys[dataKey], p.asset, p.account, p.change, p.index,
                        p.testnet, p.useXpub, p.legacy))
  }

  /** `unpack_request`: the parameters first, then the store. */
  function UnpackRequest(args: Args, store: Store): (r: Result<Request, PyError>)
    ensures ParseParams(args).Failure? ==> r == Failure(ParseParams(args).error)
    ensures ParseParams(args).Success? ==> r == ResolveKey(ParseParams(args).value, store)
    ensures r.Success? ==> r.value.account >= 0 && r.value.change >= 0 && r.value.index >= 0
  {
    var p :- ParseParams(args);
    ResolveKey(p, store)
  }

  /** Partner of `ParseParams`: any parameters the readers return and
      that pass the sign checks are exactly what parsing yields. */
  lemma ParamsOfReaders(q: Args, p: Params)
    requires "asset" in q && q["asset"] == p.asset && p.asset != ""
    requires IntParameter(q, "account", None) == Success(p.account as int)
    requires IntParameter(q, "change", Some("0")) == Success(p.change as int)
    requires IntParameter(q, "index", Some("0")) == Success(p.index as int)
    requires FlagParameter(q, "testnet") == p.testnet
    requires FlagParameter(q, "xpub") == p.useXpub
    requires FlagParameter(q, "legacy") == p.legacy
    ensures ParseParams(q) == Success(p)
  {
    assert GetParameter(q, "asset", None) == Success(Some(p.asset));
  }

  /** A negative account is rejected before the store is consulted: the
      outcome is the same for every store. */
  lemma NegativeAccountRejectedBeforeLookup(args: Args, store: Store)
    requires GetParameter(args, "asset", None).Success?
    requires IntParameter(args, "account", None).Success? && IntParameter(args, "account", None).value < 0
    requires IntParameter(args, "change", Some("0")).Success? && IntParameter(args, "index", Some("0")).Success?
    ensures UnpackRequest(args, store) ==
            Failure(PyError(Exception, "Invalid account: " + IntToString(IntParameter(args, "account", None).value)))
  {
  }

  /** With valid parameters and a known asset, the key family follows the
      asset type: ECDSA needs XPRV, EdDSA needs FPRV, any other type is a
      KeyError naming it, and a missing key is a KeyError naming the key. */
  lemma KeyFamilyChoice(p: Params, store: Store)
    requires p.asset in store.assets
    ensures var t := store.assets[p.asset].assetType;
            && (t.OtherType? ==> ResolveKey(p, store) == Failure(PyError(KeyError, "Unknown key type - " + t.name + ".")))
            && (t.Ecdsa? ==> (ResolveKey(p, store).Success? <==> XPRV in store.keys))
            && (t.Eddsa? ==> (ResolveKey(p, store).Success? <==> FPRV in store.keys))
            && (t.Ecdsa? && XPRV in store.keys ==> ResolveKey(p, store).value.key == store.keys[XPRV])
            && (t.Eddsa? && FPRV in store.keys ==> ResolveKey(p, store).value.key == store.keys[FPRV])
            && (t.Eddsa? && FPRV !in store.keys ==>
                  ResolveKey(p, store) == Failure(PyError(KeyError, "Missing the " + FPRV + " - make sure you finished setup")))
  {
  }

  // ---------------------------------------------------------------------
  // Deriving keys

  /** `DerivationDetails(prv, wif, pub, address, path)`. */
  datatype DerivationDetails = DerivationDetails(prv: Option<string>, wif: string, pub: string, address: string, path: string)

  /** `helper_class.public_key_verification(key, account, change, index,
      testnet=…, legacy=…)`: the public key and address. */
  type PublicKeyVerifier = (HelperClass, string, int, int, int, bool, bool) -> (string, string)

  /** `helper_class(key, account, change, index, testnet).get_derivation_details(…)`. */
  type DetailsDeriver = (HelperClass, string, int, int, int, bool, bool) -> DerivationDetails

  /** The public-only result's path: purpose 44, the coin id (1 on testnet),
      account, change and index, comma-separated. */
  function PublicPath(helper: HelperClass, testnet: bool, account: int, change: int, index: int): string {
    "44" + "," + (if !testnet then IntToString(helper.coinId) else "1") + ","
    + IntToString(account) + "," + IntToString(change) + "," + IntToString(index)
  }

  /** The loop body of `derive_keys_impl` for one index: both branches
      work with the loop's `index`, never with the request's own index. */
  function DeriveOne(req: Request, index: int, verify: PublicKeyVerifier, details: DetailsDeriver): (d: DerivationDetails)
    ensures req.useXpub ==> d.prv.None? && d.wif == ""
    ensures req.useXpub ==> d.path == PublicPath(req.helper, req.testnet, req.account, req.change, index)
    ensures req.useXpub ==>
              (d.pub, d.address) == verify(req.helper, req.key, req.account, req.change, index, req.testnet, req.legacy)
    ensures !req.useXpub ==>
              d == details(req.helper, req.key, req.account, req.change, index, req.testnet, req.legacy)
  {
    if req.useXpub then
      var (pub, address) := verify(req.helper, req.key, req.account, req.change, index, req.testnet, req.legacy);
      DerivationDetails(None, "", pub, address, PublicPath(req.helper, req.testnet, req.account, req.change, index))
    else
      details(req.helper, req.key, req.account, req.change, index, req.testnet, req.legacy)
  }

  /** Number of indices in the inclusive range `start..end`. */
  function RangeSize(start: int, end: int): nat {
    if end >= start then end - start + 1 else 0
  }

  /** `res` holds one result per index of `start..end`, ascending. */
  predicate DerivedRange(res: seq<DerivationDetails>, req: Request, start: int, end: int,
                         verify: PublicKeyVerifier, details: DetailsDeriver) {
    && |res| == RangeSize(start, end)
    && forall i :: 0 <= i < |res| ==> res[i] == DeriveOne(req, start + i, verify, details)
  }

  /** The loop of `derive_keys_impl`: `range(start, end + 1)`. */
  method DeriveRange(req: Request, start: int, end: int, verify: PublicKeyVerifier, details: DetailsDeriver)
    returns (res: seq<DerivationDetails>)
    ensures DerivedRange(res, req, start, end, verify, details)
  {
    var n := RangeSize(start, end);
    res := [];
    var i := 0;
    while i < n
      invariant i <= n && |res| == i
      invariant forall j :: 0 <= j < i ==> res[j] == DeriveOne(req, start + j, verify, details)
    {
      res := res + [DeriveOne(req, start + i, verify, details)];
      i := i + 1;
    }
  }

  /** `derive_keys_impl`: after unpacking the request and reading the range
      bounds (whose sign is not checked), one result per index of
      `range(index_start, index_end + 1)`, in ascending order. */
  method DeriveKeysImpl(args: Args, store: Store, verify: PublicKeyVerifier, details: DetailsDeriver)
    returns (r: Result<seq<DerivationDetails>, PyError>)
    ensures r.Success? <==>
              && UnpackRequest(args, store).Success?
              && IntParameter(args, "index_start", Some("0")).Success?
              && IntParameter(args, "index_end", Some("0")).Success?
    ensures UnpackRequest(args, store).Failure? ==> r == Failure(UnpackRequest(args, store).error)
    ensures r.Success? ==>
              DerivedRange(r.value, UnpackRequest(args, store).value,
                           IntParameter(args, "index_start", Some("0")).value,
                           IntParameter(args, "index_end", Some("0")).value, verify, details)
  {
    var unpacked := UnpackRequest(args, store);
    if unpacked.Failure? {
      return Failure(unpacked.error);
    }
    var req := unpacked.value;
    var startParam := IntParameter(args, "index_start", Some("0"));
    if startParam.Failure? {
      return Failure(startParam.error);
    }
    var endParam := IntParameter(args, "index_end", Some("0"));
    if endParam.Failure? {
      return Failure(endParam.error);
    }
    var res := DeriveRange(req, startParam.value, endParam.value, verify, details);
    return Success(res);
  }

  lemma SmallSpellings()
    ensures IntToString(44) == "44" && IntToString(1) == "1"
  {
    assert NatToString(44) == NatToString(4) + [DigitChar(4)];
  }

  /** Five spelled numbers joined with commas. */
  lemma JoinFive(strs: seq<string>)
    requires |strs| == 5
    ensures Join(strs, ',') == strs[0] + "," + strs[1] + "," + strs[2] + "," + strs[3] + "," + strs[4]
  {
    JoinStep(strs, 3);
    JoinStep(strs, 2);
    JoinStep(strs, 1);
    JoinStep(strs, 0);
  }

  /** One unfolding of `Join` on a suffix. */
  lemma JoinStep(strs: seq<string>, k: nat)
    requires k + 1 < |strs|
    ensures Join(strs[k..], ',') == strs[k] + "," + Join(strs[k + 1..], ',')
  {
    assert strs[k..][1..] == strs[k + 1..];
  }

  /** The path of a public-only result spells the five path numbers, so the
      wallet side's `split(",")`/`parseInt` reads back exactly
      [44, coin, account, change, index], with coin 1 on testnet. */
  lemma PublicPathParses(helper: HelperClass, testnet: bool, account: int, change: int, index: int)
    ensures SplitPath(PublicPath(helper, testnet, account, change, index)) ==
            [Num(44), Num(if testnet then 1 else helper.coinId), Num(account), Num(change), Num(index)]
  {
    PublicPathIsJoin(helper, testnet, account, change, index);
    SplitFiveInts(44, if testnet then 1 else helper.coinId, account, change, index);
  }

  lemma SplitFiveInts(a: int, b: int, c: int, d: int, e: int)
    ensures SplitPath(JoinInts([a, b, c, d, e])) == [Num(a), Num(b), Num(c), Num(d), Num(e)]
  {
    var ns := [a, b, c, d, e];
    SplitPathOfJoinInts(ns);
    NumsOfFive(ns);
  }

  lemma NumsOfFive(ns: seq<int>)
    requires |ns| == 5
    ensures seq(|ns|, i requires 0 <= i < |ns| => Num(ns[i])) == [Num(ns[0]), Num(ns[1]), Num(ns[2]), Num(ns[3]), Num(ns[4])]
  {
  }

  lemma PublicPathIsJoin(helper: HelperClass, testnet: bool, account: int, change: int, index: int)
    ensures PublicPath(helper, testnet, account, change, index) ==
            JoinInts([44, if testnet then 1 else helper.coinId, account, change, index])
  {
    var coin := if testnet then 1 else helper.coinId;
    var ns := [44, coin, account, change, index];
    var strs := [IntToString(44), IntToString(coin), IntToString(account), IntToString(change), IntToString(index)];
    assert strs == seq(|ns|, i requires 0 <= i < |ns| => IntToString(ns[i]));
    SmallSpellings();
    JoinFive(strs);
  }

  /** Every public-only result of a derivation carries no private key and
      a path that reads back as [44, coin, account, change, index] for its
      own index. */
  lemma PublicResultsParse(res: seq<DerivationDetails>, req: Request, start: int, end: int,
                           verify: PublicKeyVerifier, details: DetailsDeriver, i: nat)
    requires DerivedRange(res, req, start, end, verify, details) && req.useXpub && i < |res|
    ensures res[i].prv.None? && res[i].wif == ""
    ensures SplitPath(res[i].path) ==
            [Num(44), Num(if req.testnet then 1 else req.helper.coinId), Num(req.account), Num(req.change), Num(start + i)]
  {
    PublicPathParses(req.helper, req.testnet, req.account, req.change, start + i);
  }

  // ---------------------------------------------------------------------
  // Recovering and listing extended keys

  /** What the (unmodelled) recovery routine did: returned a key dictionary,
      raised a `RecoveryException`, or raised anything else. */
  datatype RecoverOutcome = Recovered(res: map<string, string>) | RaisedRecovery(reason: string) | RaisedOther(reason: string)

  /** The store after the call and what the call returned or raised. */
  datatype Recovery = Recovery(store: Store, response: Result<map<string, string>, PyError>)

  function InternalError(reason: string): PyError {
    PyError(Exception, "Internal error during recovery process: " + reason)
  }

  /** `res[k]` for a missing key raises a KeyError whose text is the quoted
      key; the handler wraps it as an internal error. */
  function MissingKey(k: string): PyError {
    InternalError("'" + k + "'")
  }

  /** The number of leading `keys` that `res` holds: the index of the first
      one it lacks, or `|keys|`. */
  function FirstMissingIndex(res: map<string, string>, keys: seq<string>): (n: nat)
    ensures n <= |keys|
    ensures forall j :: 0 <= j < n ==> keys[j] in res
    ensures n < |keys| ==> keys[n] !in res
  {
    if |keys| == 0 || keys[0] !in res then 0
    else
      var n := FirstMissingIndex(res, keys[1..]);
      assert forall j :: 1 <= j < |keys| ==> keys[1..][j - 1] == keys[j];
      1 + n
  }

  /** `after` is `before` with the first `n` of `keys` set from `res`, in
      order: those keys hold their `res` values and every other key is as
      it was. */
  ghost predicate WrittenPrefix(before: map<string, string>, after: map<string, string>, res: map<string, string>,
                                keys: seq<string>, n: nat)
    requires n <= |keys|
  {
    && (forall j :: 0 <= j < n ==> keys[j] in res && keys[j] in after && after[keys[j]] == res[keys[j]])
    && (forall k :: k !in keys[..n] ==> (k in after <==> k in before) && (k in after ==> after[k] == before[k]))
  }

  /** Store the keys of `res` named in `keys`, in order, stopping at the
      first one `res` lacks (the earlier ones stay stored). */
  function StoreKeys(store: Store, res: map<string, string>, keys: seq<string>): (r: Recovery)
    ensures r.store.assets == store.assets
    ensures r.response.Success? <==> forall i :: 0 <= i < |keys| ==> keys[i] in res
    ensures r.response.Success? ==> r.response.value == res
    ensures r.response.Success? ==>
              (forall i :: 0 <= i < |keys| ==> keys[i] in r.store.keys && r.store.keys[keys[i]] == res[keys[i]])
              && forall k :: k in store.keys && k !in keys ==> k in r.store.keys && r.store.keys[k] == store.keys[k]
    ensures r.response.Success? ==> r.store.keys.Keys == store.keys.Keys + set i | 0 <= i < |keys| :: keys[i]
    ensures r.response.Failure? ==> r.response.error == MissingKey(keys[FirstMissingIndex(res, keys)])
    ensures WrittenPrefix(store.keys, r.store.keys, res, keys, FirstMissingIndex(res, keys))
    decreases |keys|
  {
    if |keys| == 0 then
      assert keys[..0] == [];
      Recovery(store, Success(res))
    else if keys[0] !in res then
      assert keys[..0] == [];
      Recovery(store, Failure(MissingKey(keys[0])))
    else
      var written := store.keys[keys[0] := res[keys[0]]];
      var r := StoreKeys(store.(keys := written), res, keys[1..]);
      assert forall i :: 1 <= i < |keys| ==> keys[1..][i - 1] == keys[i];
      WrittenPrefixStep(store.keys, r.store.keys, res, keys, FirstMissingIndex(res, keys[1..]));
      if r.response.Success? then
        WrittenAll(store.keys, r.store.keys, res, keys);
        r
      else
        r
  }

  /** Once every key is written, the keys hold their `res` values, the
      others are as they were, and the key set grows by exactly `keys`. */
  lemma WrittenAll(before: map<string, string>, after: map<string, string>, res: map<string, string>, keys: seq<string>)
    requires WrittenPrefix(before, after, res, keys, |keys|)
    ensures forall i :: 0 <= i < |keys| ==> keys[i] in after && after[keys[i]] == res[keys[i]]
    ensures forall k :: k in before && k !in keys ==> k in after && after[k] == before[k]
    ensures after.Keys == before.Keys + set i | 0 <= i < |keys| :: keys[i]
  {
    assert keys[..|keys|] == keys;
    forall k | k in after ensures k in before.Keys + set i | 0 <= i < |keys| :: keys[i] {
      if k in keys {
        var i :| 0 <= i < |keys| && keys[i] == k;
      }
    }
  }

  /** Setting the first key, then a prefix of the rest, sets a prefix one
      longer. */
  lemma WrittenPrefixStep(before: map<string, string>, after: map<string, string>, res: map<string, string>,
                          keys: seq<string>, n: nat)
    requires |keys| > 0 && keys[0] in res && n <= |keys| - 1
    requires WrittenPrefix(before[keys[0] := res[keys[0]]], after, res, keys[1..], n)
    ensures WrittenPrefix(before, after, res, keys, n + 1)
  {
    var before' := before[keys[0] := res[keys[0]]];
    assert keys[..n + 1] == [keys[0]] + keys[1..][..n];
    forall j | 0 <= j < n + 1 ensures keys[j] in res && keys[j] in after && after[keys[j]] == res[keys[j]] {
      if j > 0 {
        assert keys[j] == keys[1..][j - 1];
      } else if keys[0] !in keys[1..][..n] {
        assert after[keys[0]] == before'[keys[0]];
      } else {
        var m :| 0 <= m < n && keys[1..][..n][m] == keys[0];
        assert keys[1..][m] == keys[0];
      }
    }
  }

  /** `recover_keys_impl`: store XPRV, FPRV, XPUB and FPUB from the
      recovered dictionary, then answer with it, private keys removed unless
      `recover_prv`. A `RecoveryException` passes through; any other failure,
      including a missing dictionary entry, becomes an internal error. */
  function RecoverKeysImpl(store: Store, outcome: RecoverOutcome, recoverPrv: bool): (r: Recovery)
    ensures r.response.Success? <==> outcome.Recovered? && forall k :: k in StoredKeys ==> k in outcome.res
    ensures outcome.RaisedRecovery? ==> r == Recovery(store, Failure(PyError(RecoveryException, outcome.reason)))
    ensures outcome.RaisedOther? ==> r == Recovery(store, Failure(InternalError(outcome.reason)))
    ensures r.response.Failure? ==> r.response.error.kind != KeyError
    ensures outcome.Recovered? ==>
              && r.store.assets == store.assets
              && WrittenPrefix(store.keys, r.store.keys, outcome.res, StoredKeys, FirstMissingIndex(outcome.res, StoredKeys))
    ensures outcome.Recovered? && r.response.Failure? ==>
              && FirstMissingIndex(outcome.res, StoredKeys) < |StoredKeys|
              && r.response.error == PyError(Exception, "Internal error during recovery process: '"
                                                        + StoredKeys[FirstMissingIndex(outcome.res, StoredKeys)] + "'")
    ensures r.response.Success? ==>
              && (forall k :: k in StoredKeys ==> k in r.store.keys && r.store.keys[k] == outcome.res[k])
              && (recoverPrv ==> r.response.value == outcome.res)
              && (!recoverPrv ==> r.response.value == outcome.res - {XPRV, FPRV})
  {
    match outcome
    case RaisedRecovery(reason) => Recovery(store, Failure(PyError(RecoveryException, reason)))
    case RaisedOther(reason) => Recovery(store, Failure(InternalError(reason)))
    case Recovered(res) =>
      var stored := StoreKeys(store, res, StoredKeys);
      assert (forall k :: k in StoredKeys ==> k in res) <==> (forall i :: 0 <= i < 4 ==> StoredKeys[i] in res);
      if stored.response.Failure? || recoverPrv then stored
      else stored.(response := Success(res - {XPRV, FPRV}))
  }

  /** Private keys leave the server only when asked for. */
  lemma RecoverWithholdsPrivateKeys(store: Store, outcome: RecoverOutcome)
    requires RecoverKeysImpl(store, outcome, false).response.Success?
    ensures var response := RecoverKeysImpl(store, outcome, false).response.value;
            XPRV !in response && FPRV !in response && XPUB in response && FPUB in response
  {
  }

  /** `get_data(k)` read as Python truthiness: stored and non-empty. */
  predicate Truthy(store: Store, k: string) {
    k in store.keys && store.keys[k] != ""
  }

  /** `show_extended_keys_impl`: all four keys, or an error when any is
      missing or empty. */
  function ShowExtendedKeysImpl(store: Store): (r: Result<map<string, string>, PyError>)
    ensures r.Success? <==> forall k :: k in StoredKeys ==> Truthy(store, k)
    ensures r.Success? ==> r.value.Keys == {XPRV, FPRV, XPUB, FPUB}
                           && forall k :: k in r.value ==> k in store.keys && r.value[k] == store.keys[k]
    ensures r.Failure? ==>
              r.error == PyError(Exception, "No extended key entries. Make sure to recover the addresses first.")
  {
    AllTruthyIff(store);
    if Truthy(store, XPRV) && Truthy(store, FPRV) && Truthy(store, XPUB) && Truthy(store, FPUB) then
      Success(KeyEntries(store))
    else
      Failure(PyError(Exception, "No extended key entries. Make sure to recover the addresses first."))
  }

  lemma AllTruthyIff(store: Store)
    ensures (Truthy(store, XPRV) && Truthy(store, FPRV) && Truthy(store, XPUB) && Truthy(store, FPUB))
            <==> forall k :: k in StoredKeys ==> Truthy(store, k)
  {
    assert StoredKeys[0] == XPRV && StoredKeys[1] == FPRV && StoredKeys[2] == XPUB && StoredKeys[3] == FPUB;
  }

  /** The four stored keys as a dictionary. */
  function KeyEntries(store: Store): (m: map<string, string>)
    requires XPRV in store.keys && FPRV in store.keys && XPUB in store.keys && FPUB in store.keys
    ensures m.Keys == {XPRV, FPRV, XPUB, FPUB}
    ensures forall k :: k in m ==> k in store.keys && m[k] == store.keys[k]
  {
    map[XPRV := store.keys[XPRV], FPRV := store.keys[FPRV], XPUB := store.keys[XPUB], FPUB := store.keys[FPUB]]
  }

  /** After a successful recovery of four non-empty keys, listing them
      returns exactly what was recovered, whether or not the private keys
      were sent back. */
  lemma RecoverThenShow(store: Store, outcome: RecoverOutcome, recoverPrv: bool)
    requires RecoverKeysImpl(store, outcome, recoverPrv).response.Success?
    requires forall k :: k in StoredKeys ==> outcome.res[k] != ""
    ensures var shown := ShowExtendedKeysImpl(RecoverKeysImpl(store, outcome, recoverPrv).store);
            shown.Success? && forall k :: k in StoredKeys ==> shown.value[k] == outcome.res[k]
  {
  }
}

=== FILE: text.dfy ===
/** String primitives of the two runtimes the core runs on: JavaScript
    (`split`, `includes`, `trim`, `toLowerCase`, `parseInt`, `String(n)`) and
    Python (`int(s)`, f-string formatting of integers). */
module Text {
  import opened Wrappers

  // ---------------------------------------------------------------------
  // JavaScript numbers as the core sees them

  /** A JavaScript number produced by `parseInt` or read from an array slot:
      an integer, `NaN`, or `undefined` for a slot past the end. */
  datatype JsNum = Num(n: int) | NaN | Undefined

  /** `v > 0`: false for `NaN` and `undefined`. */
  predicate IsPositive(v: JsNum) {
    v.Num? && v.n > 0
  }

  /** `String(v)`. */
  function JsString(v: JsNum): string {
    match v
    case Num(n) => IntToString(n)
    case NaN => "NaN"
    case Undefined => "undefined"
  }

  /** `xs[i]`, which is `undefined` outside the array. */
  function At(xs: seq<JsNum>, i: nat): (v: JsNum)
    ensures i < |xs| ==> v == xs[i]
    ensures i >= |xs| ==> v == Undefined
  {
    if i < |xs| then xs[i] else Undefined
  }

  // ---------------------------------------------------------------------
  // Decimal spelling of integers

  predicate IsDecimalDigit(c: char) {
    '0' <= c <= '9'
  }

  function DigitChar(d: nat): (c: char)
    requires d < 10
    ensures IsDecimalDigit(c) && DigitValue(c) == d
  {
    (('0' as int) + d) as char
  }

  /** Value of a digit in radices up to 36; 36 for anything else. */
  function DigitValue(c: char): nat {
    if '0' <= c <= '9' then (c as int) - ('0' as int)
    else if 'a' <= c <= 'z' then (c as int) - ('a' as int) + 10
    else if 'A' <= c <= 'Z' then (c as int) - ('A' as int) + 10
    else 36
  }

  predicate IsDigitIn(c: char, radix: nat) {
    DigitValue(c) < radix
  }

  predicate AllDigitsIn(s: string, radix: nat) {
    forall i :: 0 <= i < |s| ==> IsDigitIn(s[i], radix)
  }

  /** Positional value of a digit string, most significant digit first. */
  function DigitsValue(s: string, radix: nat): nat
    requires AllDigitsIn(s, radix)
  {
    if |s| == 0 then 0
    else DigitsValue(s[..|s| - 1], radix) * radix + DigitValue(s[|s| - 1])
  }

  /** Decimal spelling of a natural number, without leading zeros. */
  function NatToString(n: nat): (s: string)
    ensures |s| > 0
    ensures forall i :: 0 <= i < |s| ==> IsDecimalDigit(s[i])
    ensures AllDigitsIn(s, 10)
    ensures DigitsValue(s, 10) == n
    decreases n
  {
    if n < 10 then [DigitChar(n)]
    else
      var prefix := NatToString(n / 10);
      var s := prefix + [DigitChar(n % 10)];
      assert s[..|s| - 1] == prefix;
      s
  }

  /** `String(i)` in JavaScript and `str(i)` / `f"{i}"` in Python. */
  function IntToString(i: int): (s: string)
    ensures |s| > 0
    ensures forall k :: 0 <= k < |s| ==> IsDecimalDigit(s[k]) || (k == 0 && s[k] == '-')
    ensures IsDecimalDigit(s[|s| - 1])
  {
    if i < 0 then "-" + NatToString(-i) else NatToString(i)
  }

  // ---------------------------------------------------------------------
  // Whitespace, trimming and case

  /** ECMAScript WhiteSpace and LineTerminator code points: what `trim`
      strips and `parseInt` skips. */
  predicate IsJsSpace(c: char) {
    var n := c as int;
    n == 0x09 || n == 0x0A || n == 0x0B || n == 0x0C || n == 0x0D || n == 0x20
    || n == 0xA0 || n == 0x1680 || (0x2000 <= n <= 0x200A) || n == 0x2028
    || n == 0x2029 || n == 0x202F || n == 0x205F || n == 0x3000 || n == 0xFEFF
  }

  /** Code points Python's `str.isspace` accepts, stripped by `int(s)`. */
  predicate IsPySpace(c: char) {
    var n := c as int;
    (0x09 <= n <= 0x0D) || (0x1C <= n <= 0x20) || n == 0x85 || n == 0xA0
    || n == 0x1680 || (0x2000 <= n <= 0x200A) || n == 0x2028 || n == 0x2029
    || n == 0x202F || n == 0x205F || n == 0x3000
  }

  /** Drops the longest prefix of `s` whose characters satisfy `space`. */
  function StripStart(s: string, space: char -> bool): (r: string)
    ensures |r| <= |s| && r == s[|s| - |r|..]
    ensures forall i :: 0 <= i < |s| - |r| ==> space(s[i])
    ensures |r| > 0 ==> !space(r[0])
  {
    if |s| > 0 && space(s[0]) then StripStart(s[1..], space) else s
  }

  /** Drops the longest suffix of `s` whose characters satisfy `space`. */
  function StripEnd(s: string, space: char -> bool): (r: string)
    ensures |r| <= |s| && r == s[..|r|]
    ensures forall i :: |r| <= i < |s| ==> space(s[i])
    ensures |r| > 0 ==> !space(r[|r| - 1])
  {
    if |s| > 0 && space(s[|s| - 1]) then StripEnd(s[..|s| - 1], space) else s
  }

  /** `s.trim()`. */
  function Trim(s: string): string {
    StripEnd(StripStart(s, IsJsSpace), IsJsSpace)
  }

  /** `toLowerCase` on the ASCII letters. */
  function ToLowerAscii(s: string): (r: string)
    ensures |r| == |s|
    ensures forall i :: 0 <= i < |s| ==>
      r[i] == (if 'A' <= s[i] <= 'Z' then (s[i] as int + 32) as char else s[i])
  {
    if |s| == 0 then ""
    else
      var c := if 'A' <= s[0] <= 'Z' then (s[0] as int + 32) as char else s[0];
      [c] + ToLowerAscii(s[1..])
  }

  // ---------------------------------------------------------------------
  // Substrings, splitting and joining

  /** `s.includes(sub)`. */
  predicate Contains(s: string, sub: string) {
    sub <= s || (|s| > 0 && Contains(s[1..], sub))
  }

  /** `s.split(sep)` for a one-character separator. */
  function Split(s: string, sep: char): (parts: seq<string>)
    ensures |parts| > 0
    ensures forall i :: 0 <= i < |parts| ==> sep !in parts[i]
  {
    if |s| == 0 then [""]
    else
      assert s == [s[0]] + s[1..];
      var rest := Split(s[1..], sep);
      if s[0] == sep then [""] + rest
      else [[s[0]] + rest[0]] + rest[1..]
  }

  /** `parts.join(sep)`, for the non-empty arrays the core joins. */
  function Join(parts: seq<string>, sep: char): string
    requires |parts| > 0
  {
    if |parts| == 1 then parts[0] else parts[0] + [sep] + Join(parts[1..], sep)
  }

  /** `path.split(",").map((p) => parseInt(p))`. */
  function SplitPath(path: string): (parts: seq<JsNum>)
    ensures |parts| == multiset(path)[','] + 1
    ensures forall i :: 0 <= i < |parts| ==> parts[i].Num? || parts[i].NaN?
  {
    var pieces := Split(path, ',');
    SplitCount(path, ',');
    seq(|pieces|, i requires 0 <= i < |pieces| => ParseJsInt(pieces[i]))
  }

  // ---------------------------------------------------------------------
  // Number parsing

  /** Length of the longest prefix of `s` made of digits of `radix`. */
  function DigitRun(s: string, radix: nat): (k: nat)
    ensures k <= |s| && AllDigitsIn(s[..k], radix)
    ensures k < |s| ==> !IsDigitIn(s[k], radix)
  {
    if |s| > 0 && IsDigitIn(s[0], radix) then
      var k := 1 + DigitRun(s[1..], radix);
      assert s[..k] == [s[0]] + s[1..][..k - 1];
      k
    else 0
  }

  /** JavaScript `parseInt(s)` with no radix: leading whitespace is
      skipped, one sign is read, and the rest is read by `ParseUnsigned`. */
  function ParseJsInt(s: string): (r: JsNum)
    ensures r.Num? || r.NaN?
  {
    var t := StripStart(s, IsJsSpace);
    if |t| > 0 && t[0] == '-' then Negate(ParseUnsigned(t[1..]))
    else if |t| > 0 && t[0] == '+' then ParseUnsigned(t[1..])
    else ParseUnsigned(t)
  }

  function Negate(v: JsNum): JsNum {
    if v.Num? then Num(-v.n) else v
  }

  /** The unsigned part of `parseInt`: a `0x`/`0X` prefix selects radix 16,
      and the longest run of digits that follows is converted; no digits at
      all gives `NaN`. */
  function ParseUnsigned(u: string): (r: JsNum)
    ensures r.Num? || r.NaN?
  {
    var hex := |u| >= 2 && u[0] == '0' && (u[1] == 'x' || u[1] == 'X');
    var radix := if hex then 16 else 10;
    var body := if hex then u[2..] else u;
    var k := DigitRun(body, radix);
    if k == 0 then NaN else Num(DigitsValue(body[..k], radix))
  }

  /** Python `int(s)` on a string: surrounding whitespace is stripped, and
      what remains must be a signed decimal literal. */
  function ParsePyInt(s: string): (r: Result<int, string>)
    ensures r.Success? ==> |s| > 0
  {
    match PySignedDigits(StripEnd(StripStart(s, IsPySpace), IsPySpace))
    case Some(n) => Success(n)
    case None => Failure("invalid literal for int() with base 10: '" + s + "'")
  }

  /** One optional sign, then one or more decimal digits. */
  function PySignedDigits(t: string): (r: Option<int>)
    ensures r.Some? ==> |t| > 0
  {
    var negative := |t| > 0 && t[0] == '-';
    var body := if |t| > 0 && (t[0] == '-' || t[0] == '+') then t[1..] else t;
    if |body| > 0 && AllDigitsIn(body, 10) then
      var magnitude: int := DigitsValue(body, 10);
      Some(if negative then -magnitude else magnitude)
    else None
  }

  // ---------------------------------------------------------------------
  // Lemmas

  /** `split` yields one piece per separator, plus one. */
  lemma {:induction false} SplitCount(s: string, sep: char)
    ensures |Split(s, sep)| == multiset(s)[sep] + 1
  {
    if |s| > 0 {
      SplitCount(s[1..], sep);
      assert s == [s[0]] + s[1..];
      assert multiset(s) == multiset{s[0]} + multiset(s[1..]);
    }
  }

  /** Splitting and re-joining gives back the original string. */
  lemma {:induction false} JoinSplit(s: string, sep: char)
    ensures Join(Split(s, sep), sep) == s
  {
    if |s| == 0 {
    } else {
      var rest := Split(s[1..], sep);
      JoinSplit(s[1..], sep);
      if s[0] == sep {
        assert Split(s, sep) == [""] + rest;
        assert Join([""] + rest, sep) == "" + [sep] + Join(rest, sep);
      } else {
        JoinHead(rest, sep, [s[0]]);
        assert Split(s, sep) == [[s[0]] + rest[0]] + rest[1..];
      }
    }
  }

  /** Prepending to the first part of a join prepends to the joined string. */
  lemma {:induction false} JoinHead(parts: seq<string>, sep: char, pre: string)
    requires |parts| > 0
    ensures Join([pre + parts[0]] + parts[1..], sep) == pre + Join(parts, sep)
  {
    var ps := [pre + parts[0]] + parts[1..];
    if |parts| == 1 {
    } else {
      assert ps[1..] == parts[1..];
    }
  }

  /** A string without the separator splits into itself. */
  lemma {:induction false} SplitNoSeparator(a: string, sep: char)
    requires sep !in a
    ensures Split(a, sep) == [a]
  {
    if |a| > 0 {
      NotInTail(a, sep);
      SplitNoSeparator(a[1..], sep);
      assert [a[0]] + a[1..] == a;
    }
  }

  lemma NotInTail(a: string, sep: char)
    requires |a| > 0 && sep !in a
    ensures sep !in a[1..]
  {
    forall k | 0 <= k < |a[1..]| ensures a[1..][k] != sep {
      assert a[1..][k] == a[k + 1];
    }
  }

  /** A part free of the separator, then the separator, splits off as one part. */
  lemma {:induction false} SplitAfterPart(a: string, sep: char, b: string)
    requires sep !in a
    ensures Split(a + [sep] + b, sep) == [a] + Split(b, sep)
  {
    var s := a + [sep] + b;
    if |a| == 0 {
      assert s[1..] == b;
    } else {
      NotInTail(a, sep);
      SplitAfterPart(a[1..], sep, b);
      assert s[1..] == a[1..] + [sep] + b;
      var rest := Split(s[1..], sep);
      assert rest == [a[1..]] + Split(b, sep);
      assert s[0] == a[0] && s[0] != sep;
      assert Split(s, sep) == [[s[0]] + rest[0]] + rest[1..];
      assert [a[0]] + a[1..] == a;
    }
  }

  /** Joining separator-free parts and splitting again gives the parts back. */
  lemma {:induction false} SplitJoin(parts: seq<string>, sep: char)
    requires |parts| > 0
    requires forall i :: 0 <= i < |parts| ==> sep !in parts[i]
    ensures Split(Join(parts, sep), sep) == parts
  {
    if |parts| == 1 {
      SplitNoSeparator(parts[0], sep);
    } else {
      SplitJoin(parts[1..], sep);
      SplitAfterPart(parts[0], sep, Join(parts[1..], sep));
      assert [parts[0]] + parts[1..] == parts;
    }
  }

  lemma DigitIsNotSpace(c: char)
    requires IsDecimalDigit(c)
    ensures !IsJsSpace(c) && !IsPySpace(c)
  {
  }

  /** Stripping leaves a string of decimal digits unchanged. */
  lemma StripDigits(s: string)
    requires |s| > 0
    requires forall i :: 0 <= i < |s| ==> IsDecimalDigit(s[i])
    ensures StripStart(s, IsJsSpace) == s
    ensures StripStart(s, IsPySpace) == s
    ensures StripEnd(s, IsPySpace) == s
  {
    DigitIsNotSpace(s[0]);
    DigitIsNotSpace(s[|s| - 1]);
  }

  /** The decimal digit run of an all-digit string is the whole string. */
  lemma {:induction false} DigitRunAll(s: string)
    requires forall i :: 0 <= i < |s| ==> IsDecimalDigit(s[i])
    ensures DigitRun(s, 10) == |s|
  {
    if |s| > 0 {
      DigitRunAll(s[1..]);
    }
  }

  /** `ParseUnsigned` reads back the decimal spelling of a natural number. */
  lemma ParseUnsignedOfNatToString(m: nat)
    ensures ParseUnsigned(NatToString(m)) == Num(m)
  {
    var digits := NatToString(m);
    DigitRunAll(digits);
    assert digits[..|digits|] == digits;
    assert !(|digits| >= 2 && digits[0] == '0' && (digits[1] == 'x' || digits[1] == 'X')) by {
      if |digits| >= 2 {
        assert IsDecimalDigit(digits[1]);
      }
    }
  }

  /** `parseInt(String(i))` is `i`. */
  lemma ParseJsIntOfIntToString(i: int)
    ensures ParseJsInt(IntToString(i)) == Num(i)
  {
    var m: nat := if i < 0 then -i else i;
    var digits := NatToString(m);
    ParseUnsignedOfNatToString(m);
    var s := IntToString(i);
    if i < 0 {
      assert s == "-" + digits;
      JsIntOfMinus(digits, m);
    } else {
      StripDigits(digits);
    }
  }

  /** `parseInt("-" + d)` negates what the unsigned reading of `d` gives. */
  lemma JsIntOfMinus(digits: string, m: nat)
    requires ParseUnsigned(digits) == Num(m)
    ensures ParseJsInt("-" + digits) == Num(-(m as int))
  {
    var s := "-" + digits;
    assert !IsJsSpace(s[0]);
    assert StripStart(s, IsJsSpace) == s;
    assert s[0] == '-' && s[1..] == digits;
  }

  /** Python `int(str(i))` is `i`. */
  lemma ParsePyIntOfIntToString(i: int)
    ensures ParsePyInt(IntToString(i)) == Success(i)
  {
    var m: nat := if i < 0 then -i else i;
    var digits := NatToString(m);
    var s := IntToString(i);
    DigitIsNotSpace(s[|s| - 1]);
    if i < 0 {
      assert s == "-" + digits;
      assert s[1..] == digits;
      PyIntOfSigned(digits, m);
    } else {
      DigitIsNotSpace(s[0]);
      PyStripNothing(s);
    }
  }

  /** Stripping a string whose ends are not spaces leaves it unchanged. */
  lemma PyStripNothing(s: string)
    requires |s| > 0 && !IsPySpace(s[0]) && !IsPySpace(s[|s| - 1])
    ensures StripEnd(StripStart(s, IsPySpace), IsPySpace) == s
  {
    assert StripStart(s, IsPySpace) == s;
  }

  /** `int("-" + d)` is minus the value of the digits `d`. */
  lemma PyIntOfSigned(digits: string, m: nat)
    requires |digits| > 0 && AllDigitsIn(digits, 10) && DigitsValue(digits, 10) == m
    requires !IsPySpace(digits[|digits| - 1])
    ensures ParsePyInt("-" + digits) == Success(-(m as int))
  {
    var s := "-" + digits;
    assert s[|s| - 1] == digits[|digits| - 1];
    PyStripNothing(s);
    SignedDigitsOfMinus(digits, m);
  }

  lemma SignedDigitsOfMinus(digits: string, m: nat)
    requires |digits| > 0 && AllDigitsIn(digits, 10) && DigitsValue(digits, 10) == m
    ensures PySignedDigits("-" + digits) == Some(-(m as int))
  {
    var s := "-" + digits;
    assert s[0] == '-' && s[1..] == digits;
  }

  /** The comma-joined decimal spelling of integers. */
  function JoinInts(ns: seq<int>): string
    requires |ns| > 0
  {
    Join(seq(|ns|, i requires 0 <= i < |ns| => IntToString(ns[i])), ',')
  }

  /** `splitPath` inverts the comma-joined spelling of a list of integers:
      one part per number, each parsed back to the number. */
  lemma SplitPathOfJoinInts(ns: seq<int>)
    requires |ns| > 0
    ensures SplitPath(JoinInts(ns)) == seq(|ns|, i requires 0 <= i < |ns| => Num(ns[i]))
  {
    var strs := seq(|ns|, i requires 0 <= i < |ns| => IntToString(ns[i]));
    forall i | 0 <= i < |strs| ensures ',' !in strs[i] {
      NoCommaInInt(ns[i]);
    }
    SplitJoin(strs, ',');
    SplitPathPieces(JoinInts(ns));
    ParseEach(strs, ns);
  }

  /** `SplitPath` parses each piece of the split. */
  lemma SplitPathPieces(path: string)
    ensures SplitPath(path) == seq(|Split(path, ',')|, i requires 0 <= i < |Split(path, ',')| => ParseJsInt(Split(path, ',')[i]))
  {
  }

  /** Parsing the spellings of integers gives the integers. */
  lemma ParseEach(strs: seq<string>, ns: seq<int>)
    requires |strs| == |ns| && forall i :: 0 <= i < |ns| ==> strs[i] == IntToString(ns[i])
    ensures seq(|strs|, i requires 0 <= i < |strs| => ParseJsInt(strs[i])) == seq(|ns|, i requires 0 <= i < |ns| => Num(ns[i]))
  {
    forall i | 0 <= i < |ns| ensures ParseJsInt(strs[i]) == Num(ns[i]) {
      ParseJsIntOfIntToString(ns[i]);
    }
  }

  lemma NoCommaInInt(i: int)
    ensures ',' !in IntToString(i)
  {
    var s := IntToString(i);
    forall k | 0 <= k < |s| ensures s[k] != ',' {
    }
  }

  /** An asset id containing "_TEST" also contains "TEST". */
  lemma {:induction false} ContainsUnderscoreTest(s: string)
    requires Contains(s, "_TEST")
    ensures Contains(s, "TEST")
  {
    if "_TEST" <= s {
      assert s[1..][..4] == "TEST";
      assert Contains(s[1..], "TEST");
    } else {
      ContainsUnderscoreTest(s[1..]);
    }
  }
}

=== FILE: workspace.dfy ===
/** The recovery utility's workspace state: vault accounts rebuilt from CSV
    rows (grouped by account and asset, derivations kept sorted by address
    index), accounts and wallets added one at a time, the URL query the
    pages read, and the reset that clears it all. Key derivation is an
    uninterpreted function passed in by the caller. */
module Workspace {
  import opened Wrappers
  import opened Text
  import opened ExtendedKeys

  datatype AddressType = Permanent | Deposit

  datatype Derivation = Derivation(
    pathParts: seq<int>,
    address: string,
    addressType: AddressType,
    description: Option<string>,
    tag: Option<string>,
    publicKey: Option<string>,
    privateKey: Option<string>,
    wif: Option<string>)

  datatype Wallet = Wallet(assetId: string, isTestnet: bool, derivations: seq<Derivation>)

  datatype VaultAccount = VaultAccount(id: int, name: string, wallets: map<string, Wallet>)

  type Accounts = map<int, VaultAccount>

  /** The workspace state the operations below read and replace. */
  datatype State = State(extendedKeys: Option<ExtendedKeys>, vaultAccounts: Accounts)

  /** One row of an imported address CSV, as the CSV reader hands it over. */
  datatype ParsedRow = ParsedRow(
    accountId: int,
    accountName: Option<string>,
    assetId: string,
    pathParts: seq<int>,
    address: string,
    addressType: AddressType,
    addressDescription: Option<string>,
    tag: Option<string>,
    publicKey: Option<string>,
    privateKey: Option<string>,
    privateKeyWif: Option<string>)

  /** What `deriveWallet` is asked for; the derivation itself is a parameter. */
  datatype DeriveRequest = DeriveRequest(
    xprv: Option<string>,
    fprv: Option<string>,
    assetId: string,
    accountId: int,
    indexStart: int,
    indexEnd: int)

  type Deriver = DeriveRequest -> seq<Derivation>

  // ---------------------------------------------------------------------
  // Derivations ordered by address index

  /** A full BIP44 path has its address index at position 4. */
  predicate HasIndex(d: Derivation) {
    |d.pathParts| > 4
  }

  function IndexOf(d: Derivation): int
    requires HasIndex(d)
  {
    d.pathParts[4]
  }

  predicate Indexed(ds: seq<Derivation>) {
    forall i :: 0 <= i < |ds| ==> HasIndex(ds[i])
  }

  predicate SortedByIndex(ds: seq<Derivation>)
    requires Indexed(ds)
  {
    forall i, j :: 0 <= i < j < |ds| ==> IndexOf(ds[i]) <= IndexOf(ds[j])
  }

  /** The first position whose index exceeds `key`. */
  function InsertionPoint(ds: seq<Derivation>, key: int): (p: nat)
    requires Indexed(ds) && SortedByIndex(ds)
    ensures p <= |ds|
    ensures forall i :: 0 <= i < p ==> IndexOf(ds[i]) <= key
    ensures forall i :: p <= i < |ds| ==> IndexOf(ds[i]) > key
  {
    if |ds| == 0 || IndexOf(ds[0]) > key then 0
    else
      var p := 1 + InsertionPoint(ds[1..], key);
      assert forall i :: 1 <= i < |ds| ==> ds[1..][i - 1] == ds[i];
      p
  }

  /** `derivations.push(d)` followed by the stable sort on the address index
      of an already sorted list: `d` lands after every entry whose index is
      not larger, and the result is a sorted permutation of the old entries
      plus `d`. */
  function PushSorted(ds: seq<Derivation>, d: Derivation): (r: seq<Derivation>)
    requires Indexed(ds) && SortedByIndex(ds) && HasIndex(d)
    ensures Indexed(r) && SortedByIndex(r)
    ensures multiset(r) == multiset(ds) + multiset{d}
    ensures exists p :: InsertedAt(ds, d, r, p)
  {
    var p := InsertionPoint(ds, IndexOf(d));
    var r := ds[..p] + [d] + ds[p..];
    InsertAt(ds, d, p, r);
    r
  }

  /** `r` is `ds` with `d` at position `p`, after which every index is
      larger than that of `d`. */
  ghost predicate InsertedAt(ds: seq<Derivation>, d: Derivation, r: seq<Derivation>, p: int) {
    && 0 <= p < |r| && r[p] == d && r[..p] + r[p + 1..] == ds
    && Indexed(r) && forall i :: p < i < |r| ==> IndexOf(r[i]) > IndexOf(d)
  }

  /** Inserting at the insertion point keeps the list sorted and adds
      exactly `d`. */
  lemma InsertAt(ds: seq<Derivation>, d: Derivation, p: nat, r: seq<Derivation>)
    requires Indexed(ds) && SortedByIndex(ds) && HasIndex(d) && p <= |ds|
    requires forall i :: 0 <= i < p ==> IndexOf(ds[i]) <= IndexOf(d)
    requires forall i :: p <= i < |ds| ==> IndexOf(ds[i]) > IndexOf(d)
    requires r == ds[..p] + [d] + ds[p..]
    ensures Indexed(r) && SortedByIndex(r)
    ensures multiset(r) == multiset(ds) + multiset{d}
    ensures InsertedAt(ds, d, r, p)
  {
    InsertAtShape(ds, d, p);
    InsertAtSorted(ds, d, p, r);
    InsertAtMultiset(ds, d, p);
  }

  lemma InsertAtMultiset(ds: seq<Derivation>, d: Derivation, p: nat)
    requires p <= |ds|
    ensures multiset(ds[..p] + [d] + ds[p..]) == multiset(ds) + multiset{d}
  {
    assert ds == ds[..p] + ds[p..];
  }

  lemma InsertAtSorted(ds: seq<Derivation>, d: Derivation, p: nat, r: seq<Derivation>)
    requires Indexed(ds) && SortedByIndex(ds) && HasIndex(d) && p <= |ds|
    requires forall i :: 0 <= i < p ==> IndexOf(ds[i]) <= IndexOf(d)
    requires forall i :: p <= i < |ds| ==> IndexOf(ds[i]) > IndexOf(d)
    requires |r| == |ds| + 1 && r[p] == d
    requires forall i :: 0 <= i < p ==> r[i] == ds[i]
    requires forall i :: p < i < |r| ==> r[i] == ds[i - 1]
    ensures Indexed(r) && SortedByIndex(r)
    ensures forall i :: p < i < |r| ==> IndexOf(r[i]) > IndexOf(d)
  {
    forall i, j | 0 <= i < j < |r| ensures IndexOf(r[i]) <= IndexOf(r[j]) {
      if j < p {
        assert r[i] == ds[i] && r[j] == ds[j];
      } else if i > p {
        assert r[i] == ds[i - 1] && r[j] == ds[j - 1];
      } else if i == p {
        assert r[j] == ds[j - 1];
      } else if j == p {
        assert r[i] == ds[i];
      } else {
        assert r[i] == ds[i] && r[j] == ds[j - 1];
      }
    }
  }

  lemma InsertAtShape(ds: seq<Derivation>, d: Derivation, p: nat)
    requires p <= |ds|
    ensures var r := ds[..p] + [d] + ds[p..];
            && |r| == |ds| + 1 && r[p] == d
            && (forall i :: 0 <= i < p ==> r[i] == ds[i])
            && (forall i :: p < i < |r| ==> r[i] == ds[i - 1])
            && r[..p] + r[p + 1..] == ds
  {
    var r := ds[..p] + [d] + ds[p..];
    assert r[..p] == ds[..p];
    assert r[p + 1..] == ds[p..];
    assert ds == ds[..p] + ds[p..];
  }

  // ---------------------------------------------------------------------
  // Grouping CSV rows into accounts

  function DerivationOf(row: ParsedRow): (d: Derivation)
    ensures d.pathParts == row.pathParts && d.address == row.address && d.addressType == row.addressType
    ensures d.description == row.addressDescription && d.tag == row.tag
    ensures d.publicKey == row.publicKey && d.privateKey == row.privateKey && d.wif == row.privateKeyWif
  {
    Derivation(row.pathParts, row.address, row.addressType, row.addressDescription,
               row.tag, row.publicKey, row.privateKey, row.privateKeyWif)
  }

  /** `accountName ?? "Account <id>"`. */
  function AccountName(row: ParsedRow): string {
    row.accountName.GetOr("Account " + IntToString(row.accountId))
  }

  /** The CSV import marks a wallet testnet when its asset id contains
      "TEST" anywhere. */
  predicate CsvTestnet(assetId: string) {
    Contains(assetId, "TEST")
  }

  /** A wallet built by the import: filed under its asset, non-empty, every
      derivation carrying an index, sorted by it. */
  ghost predicate GoodWallet(a: string, w: Wallet) {
    && w.assetId == a && w.isTestnet == CsvTestnet(a)
    && |w.derivations| > 0 && Indexed(w.derivations) && SortedByIndex(w.derivations)
  }

  ghost predicate GoodAccount(id: int, v: VaultAccount) {
    v.id == id && forall a :: a in v.wallets ==> GoodWallet(a, v.wallets[a])
  }

  /** The shape the row handler maintains: accounts keyed by their id,
      every wallet good. */
  ghost predicate WellFormed(acc: Accounts) {
    forall id :: id in acc ==> GoodAccount(id, acc[id])
  }

  predicate HasWallet(acc: Accounts, id: int, assetId: string) {
    id in acc && assetId in acc[id].wallets
  }

  /** The derivations stored for (account, asset); none when absent. */
  function DerivationsAt(acc: Accounts, id: int, assetId: string): seq<Derivation> {
    if HasWallet(acc, id, assetId) then acc[id].wallets[assetId].derivations else []
  }

  /** The wallet a row creates when its asset is new to the account. */
  function NewWallet(row: ParsedRow): (w: Wallet)
    requires |row.pathParts| > 4
    ensures GoodWallet(row.assetId, w)
    ensures multiset(w.derivations) == multiset{DerivationOf(row)}
  {
    Wallet(row.assetId, CsvTestnet(row.assetId), [DerivationOf(row)])
  }

  /** A row for an account already seen: its derivation joins the existing
      wallet of its asset (kept sorted) or starts a new one; the name and
      the other wallets are untouched. */
  function FileRow(account: VaultAccount, row: ParsedRow): (r: VaultAccount)
    requires GoodAccount(row.accountId, account) && |row.pathParts| > 4
    ensures GoodAccount(row.accountId, r)
    ensures r.name == account.name
    ensures r.wallets.Keys == account.wallets.Keys + {row.assetId}
    ensures forall a :: a in account.wallets && a != row.assetId ==> r.wallets[a] == account.wallets[a]
    ensures multiset(r.wallets[row.assetId].derivations) ==
            (if row.assetId in account.wallets then multiset(account.wallets[row.assetId].derivations)
             else multiset{})
            + multiset{DerivationOf(row)}
  {
    if row.assetId in account.wallets then
      var existing := account.wallets[row.assetId];
      var updated := existing.(derivations := PushSorted(existing.derivations, DerivationOf(row)));
      account.(wallets := account.wallets[row.assetId := updated])
    else
      account.(wallets := account.wallets[row.assetId := NewWallet(row)])
  }

  /** `handleRow`: file the row's derivation under its account and asset,
      creating the account, named from this row, when it is the first. */
  function HandleRow(acc: Accounts, row: ParsedRow): (r: Accounts)
    requires WellFormed(acc) && |row.pathParts| > 4
    ensures WellFormed(r)
    ensures r.Keys == acc.Keys + {row.accountId}
    ensures forall id :: id in acc && id != row.accountId ==> r[id] == acc[id]
    ensures r[row.accountId].name ==
            (if row.accountId in acc then acc[row.accountId].name else AccountName(row))
  {
    if row.accountId in acc then
      acc[row.accountId := FileRow(acc[row.accountId], row)]
    else
      acc[row.accountId := NewAccount(row)]
  }

  /** The account a row creates when its account id is new. */
  function NewAccount(row: ParsedRow): (v: VaultAccount)
    requires |row.pathParts| > 4
    ensures GoodAccount(row.accountId, v) && v.name == AccountName(row)
    ensures v.wallets.Keys == {row.assetId}
    ensures multiset(v.wallets[row.assetId].derivations) == multiset{DerivationOf(row)}
  {
    VaultAccount(row.accountId, AccountName(row), map[row.assetId := NewWallet(row)])
  }

  /** The row's derivation is added to its own (account, asset) and to no
      other. */
  lemma HandleRowContents(acc: Accounts, row: ParsedRow, id: int, a: string)
    requires WellFormed(acc) && |row.pathParts| > 4
    ensures multiset(DerivationsAt(HandleRow(acc, row), id, a)) ==
            multiset(DerivationsAt(acc, id, a))
            + (if id == row.accountId && a == row.assetId then multiset{DerivationOf(row)} else multiset{})
  {
    var r := HandleRow(acc, row);
    if id == row.accountId && row.accountId in acc {
      if a == row.assetId {
      } else {
        assert HasWallet(r, id, a) == HasWallet(acc, id, a);
      }
    }
  }

  predicate RowsIndexed(rows: seq<ParsedRow>) {
    forall i :: 0 <= i < |rows| ==> |rows[i].pathParts| > 4
  }

  /** Some row belongs to account `id`. */
  predicate NamesAccount(rows: seq<ParsedRow>, id: int) {
    exists i :: 0 <= i < |rows| && rows[i].accountId == id
  }

  /** The derivations of the rows for (account, asset), in file order. */
  function RowsFor(rows: seq<ParsedRow>, id: int, assetId: string): seq<Derivation> {
    if |rows| == 0 then []
    else
      var last := rows[|rows| - 1];
      RowsFor(rows[..|rows| - 1], id, assetId)
      + (if last.accountId == id && last.assetId == assetId then [DerivationOf(last)] else [])
  }

  /** `csvImport(file, handleRow)`: the rows handled in file order, starting
      from no accounts. The accounts are exactly those some row names. */
  function GroupRows(rows: seq<ParsedRow>): (acc: Accounts)
    requires RowsIndexed(rows)
    ensures WellFormed(acc)
    ensures forall id :: id in acc <==> NamesAccount(rows, id)
  {
    if |rows| == 0 then map[]
    else
      SnocRows(rows);
      HandleRow(GroupRows(rows[..|rows| - 1]), rows[|rows| - 1])
  }

  lemma PrefixIndexed(rows: seq<ParsedRow>)
    requires RowsIndexed(rows) && |rows| > 0
    ensures RowsIndexed(rows[..|rows| - 1])
  {
    var prefix := rows[..|rows| - 1];
    assert forall i :: 0 <= i < |prefix| ==> prefix[i] == rows[i];
  }

  /** Dropping the last row keeps the rows indexed and forgets only the
      account the last row names. */
  lemma SnocRows(rows: seq<ParsedRow>)
    requires RowsIndexed(rows) && |rows| > 0
    ensures RowsIndexed(rows[..|rows| - 1])
    ensures forall id :: NamesAccount(rows, id) <==>
      NamesAccount(rows[..|rows| - 1], id) || rows[|rows| - 1].accountId == id
  {
    var prefix := rows[..|rows| - 1];
    assert forall i :: 0 <= i < |prefix| ==> prefix[i] == rows[i];
  }

  /** Every wallet of the import holds, sorted, exactly the derivations of
      the rows for its account and asset. */
  lemma {:induction false} GroupRowsContents(rows: seq<ParsedRow>, id: int, a: string)
    requires RowsIndexed(rows)
    ensures multiset(DerivationsAt(GroupRows(rows), id, a)) == multiset(RowsFor(rows, id, a))
  {
    if |rows| > 0 {
      var prefix := rows[..|rows| - 1];
      assert forall i :: 0 <= i < |prefix| ==> prefix[i] == rows[i];
      GroupRowsContents(prefix, id, a);
      HandleRowContents(GroupRows(prefix), rows[|rows| - 1], id, a);
    }
  }

  /** An account is named after its first row: later rows for the same
      account never rename it. */
  lemma {:induction false} AccountNamedByFirstRow(rows: seq<ParsedRow>, i: nat)
    requires RowsIndexed(rows)
    requires i < |rows|
    requires forall j :: 0 <= j < i ==> rows[j].accountId != rows[i].accountId
    ensures rows[i].accountId in GroupRows(rows)
    ensures GroupRows(rows)[rows[i].accountId].name == AccountName(rows[i])
  {
    PrefixIndexed(rows);
    var prefix := rows[..|rows| - 1];
    if i == |rows| - 1 {
      assert !NamesAccount(prefix, rows[i].accountId) by {
        forall j | 0 <= j < |prefix| ensures prefix[j].accountId != rows[i].accountId {
          assert prefix[j] == rows[j];
        }
      }
      NamedAfterRow(rows, rows[i].accountId, AccountName(rows[i]));
    } else {
      assert prefix[i] == rows[i];
      assert forall j :: 0 <= j < i ==> prefix[j] == rows[j];
      AccountNamedByFirstRow(prefix, i);
      NamedAfterRow(rows, rows[i].accountId, AccountName(rows[i]));
    }
  }

  /** The name an account has after the last row is handled. */
  lemma NamedAfterRow(rows: seq<ParsedRow>, id: int, name: string)
    requires RowsIndexed(rows) && |rows| > 0 && RowsIndexed(rows[..|rows| - 1])
    requires var before := GroupRows(rows[..|rows| - 1]);
             (id in before && before[id].name == name)
             || (!NamesAccount(rows[..|rows| - 1], id) && id == rows[|rows| - 1].accountId && name == AccountName(rows[|rows| - 1]))
    ensures id in GroupRows(rows) && GroupRows(rows)[id].name == name
  {
    NameAfterHandle(GroupRows(rows[..|rows| - 1]), rows[|rows| - 1], id, name);
  }

  /** `handleRow` keeps the name of an account it already holds, and names
      a new account from its row. */
  lemma NameAfterHandle(acc: Accounts, row: ParsedRow, id: int, name: string)
    requires WellFormed(acc) && |row.pathParts| > 4
    requires (id in acc && acc[id].name == name) || (id !in acc && id == row.accountId && name == AccountName(row))
    ensures id in HandleRow(acc, row) && HandleRow(acc, row)[id].name == name
  {
  }

  lemma {:induction false} RowInRowsFor(rows: seq<ParsedRow>, i: nat)
    requires i < |rows|
    ensures DerivationOf(rows[i]) in RowsFor(rows, rows[i].accountId, rows[i].assetId)
  {
    var prefix := rows[..|rows| - 1];
    if i < |rows| - 1 {
      assert prefix[i] == rows[i];
      RowInRowsFor(prefix, i);
    }
  }

  // ---------------------------------------------------------------------
  // Re-derivation after the import

  /** The request for a re-derived wallet: the keys given to the import and
      the index range from the first to the last (sorted) derivation, which
      spans exactly the indices the wallet lists. */
  function RederiveRequest(keys: Option<ExtendedKeys>, id: int, w: Wallet): (req: DeriveRequest)
    requires |w.derivations| > 0 && Indexed(w.derivations) && SortedByIndex(w.derivations)
    ensures req.assetId == w.assetId && req.accountId == id
    ensures req.xprv == (if keys.Some? then keys.value.xprv else None)
    ensures req.fprv == (if keys.Some? then keys.value.fprv else None)
    ensures forall i :: 0 <= i < |w.derivations| ==>
              req.indexStart <= IndexOf(w.derivations[i]) <= req.indexEnd
    ensures exists i :: 0 <= i < |w.derivations| && IndexOf(w.derivations[i]) == req.indexStart
    ensures exists i :: 0 <= i < |w.derivations| && IndexOf(w.derivations[i]) == req.indexEnd
  {
    var ds := w.derivations;
    var k := keys.GetOr(ExtendedKeys(None, None, None, None));
    DeriveRequest(k.xprv, k.fprv, w.assetId, id, IndexOf(ds[0]), IndexOf(ds[|ds| - 1]))
  }

  /** One wallet after the re-derivation loop: a wallet of an asset outside
      `known` is skipped; any other gets the derived list for its range. */
  function RederiveWallet(keys: Option<ExtendedKeys>, known: set<string>, id: int, w: Wallet,
                          derive: Deriver): (r: Wallet)
    requires |w.derivations| > 0 && Indexed(w.derivations) && SortedByIndex(w.derivations)
    ensures r.assetId == w.assetId && r.isTestnet == w.isTestnet
    ensures w.assetId !in known ==> r == w
    ensures w.assetId in known ==> r.derivations == derive(RederiveRequest(keys, id, w))
  {
    if w.assetId in known then w.(derivations := derive(RederiveRequest(keys, id, w))) else w
  }

  /** The loop over every account and wallet of the import. */
  function Rederive(acc: Accounts, keys: Option<ExtendedKeys>, known: set<string>, derive: Deriver): (r: Accounts)
    requires WellFormed(acc)
    ensures r.Keys == acc.Keys
    ensures forall id :: id in r ==>
              r[id].id == id && r[id].name == acc[id].name && r[id].wallets.Keys == acc[id].wallets.Keys
    ensures forall id, a :: HasWallet(acc, id, a) ==>
              r[id].wallets[a] == RederiveWallet(keys, known, id, acc[id].wallets[a], derive)
  {
    map id | id in acc ::
      acc[id].(wallets := map a | a in acc[id].wallets ::
        RederiveWallet(keys, known, id, acc[id].wallets[a], derive))
  }

  /** `restoreVaultAccounts`: the previous accounts are discarded and
      replaced by the grouped, re-derived CSV contents; the stored extended
      keys are not touched. */
  function RestoreVaultAccounts(state: State, rows: seq<ParsedRow>, keys: Option<ExtendedKeys>,
                                known: set<string>, derive: Deriver): (r: State)
    requires RowsIndexed(rows)
    ensures r.extendedKeys == state.extendedKeys
    ensures forall id :: id in r.vaultAccounts <==> NamesAccount(rows, id)
    ensures forall id :: id in r.vaultAccounts ==>
              && r.vaultAccounts[id].id == id
              && r.vaultAccounts[id].name == GroupRows(rows)[id].name
              && r.vaultAccounts[id].wallets.Keys == GroupRows(rows)[id].wallets.Keys
    ensures forall id, a :: HasWallet(GroupRows(rows), id, a) ==>
              r.vaultAccounts[id].wallets[a] == RederiveWallet(keys, known, id, GroupRows(rows)[id].wallets[a], derive)
  {
    State(state.extendedKeys, Rederive(GroupRows(rows), keys, known, derive))
  }

  /** Every row of the import ends up in the wallet of its account and
      asset. */
  lemma RowIsFiled(rows: seq<ParsedRow>, i: nat)
    requires RowsIndexed(rows) && i < |rows|
    ensures HasWallet(GroupRows(rows), rows[i].accountId, rows[i].assetId)
    ensures DerivationOf(rows[i]) in GroupRows(rows)[rows[i].accountId].wallets[rows[i].assetId].derivations
  {
    var acc := GroupRows(rows);
    var id, a := rows[i].accountId, rows[i].assetId;
    RowInRowsFor(rows, i);
    GroupRowsContents(rows, id, a);
    assert DerivationOf(rows[i]) in multiset(RowsFor(rows, id, a));
    assert DerivationOf(rows[i]) in multiset(DerivationsAt(acc, id, a));
  }

  /** The index range each wallet is re-derived over covers the index of
      every row filed in it. */
  lemma RederiveRangeCoversRows(rows: seq<ParsedRow>, keys: Option<ExtendedKeys>, i: nat)
    requires RowsIndexed(rows) && i < |rows|
    ensures HasWallet(GroupRows(rows), rows[i].accountId, rows[i].assetId)
    ensures var w := GroupRows(rows)[rows[i].accountId].wallets[rows[i].assetId];
            var req := RederiveRequest(keys, rows[i].accountId, w);
            req.indexStart <= rows[i].pathParts[4] <= req.indexEnd
  {
    RowIsFiled(rows, i);
    var ds := GroupRows(rows)[rows[i].accountId].wallets[rows[i].assetId].derivations;
    var k :| 0 <= k < |ds| && ds[k] == DerivationOf(rows[i]);
  }

  // ---------------------------------------------------------------------
  // Adding an account or a wallet

  predicate IsMax(m: int, s: set<int>) {
    m in s && forall x :: x in s ==> x <= m
  }

  lemma {:induction false} MaxExists(s: set<int>)
    requires s != {}
    ensures exists m :: IsMax(m, s)
    decreases |s|
  {
    if forall y :: y !in s {
      assert false;
    }
    var x :| x in s;
    var rest := s - {x};
    assert forall y :: y in s ==> y == x || y in rest;
    if rest != {} {
      MaxExists(rest);
      var m :| IsMax(m, rest);
      if x > m {
        assert IsMax(x, s);
      } else {
        assert IsMax(m, s);
      }
    } else {
      assert forall y :: y !in rest;
      assert IsMax(x, s);
    }
  }

  /** `Math.max(...ids)` of a non-empty set of ids. */
  function MaxOf(s: set<int>): (m: int)
    requires s != {}
    ensures m in s && forall x :: x in s ==> x <= m
  {
    MaxExists(s);
    var m :| IsMax(m, s);
    m
  }

  /** The id `restoreVaultAccount` assigns: 0 for an empty workspace,
      otherwise one past the largest id in use. */
  function NextAccountId(accounts: Accounts): (id: int)
    ensures id !in accounts
    ensures |accounts| == 0 ==> id == 0
    ensures |accounts| > 0 ==> id - 1 in accounts && forall k :: k in accounts ==> k < id
  {
    if |accounts| == 0 then 0 else MaxOf(accounts.Keys) + 1
  }

  /** `restoreVaultAccount(name)`: one new account with the next id, the
      given name and no wallets; every other account and the keys are
      unchanged. The state updater is taken to run on the state the id was
      computed from. */
  method RestoreVaultAccount(state: State, name: string) returns (id: int, next: State)
    ensures id !in state.vaultAccounts
    ensures |state.vaultAccounts| == 0 ==> id == 0
    ensures |state.vaultAccounts| > 0 ==>
              id - 1 in state.vaultAccounts && forall k :: k in state.vaultAccounts ==> k < id
    ensures next.vaultAccounts.Keys == state.vaultAccounts.Keys + {id}
    ensures forall k :: k in state.vaultAccounts ==> next.vaultAccounts[k] == state.vaultAccounts[k]
    ensures next.vaultAccounts[id].id == id && next.vaultAccounts[id].name == name
    ensures next.vaultAccounts[id].wallets == map[]
    ensures next.extendedKeys == state.extendedKeys
  {
    id := |state.vaultAccounts|;
    if id > 0 {
      id := MaxOf(state.vaultAccounts.Keys) + 1;
    }
    next := state.(vaultAccounts := state.vaultAccounts[id := VaultAccount(id, name, map[])]);
  }

  /** Three accounts with ids {0, 2, 5}: the next id is 6, not the count 3. */
  lemma NextAccountIdSkipsGaps(accounts: Accounts)
    requires accounts.Keys == {0, 2, 5}
    ensures NextAccountId(accounts) == 6
  {
    assert 5 in accounts;
    var id := NextAccountId(accounts);
    assert id - 1 in {0, 2, 5};
  }

  /** `restoreWallet` marks a wallet testnet when its asset id contains
      "_TEST". */
  predicate WalletTestnet(assetId: string) {
    Contains(assetId, "_TEST")
  }

  /** The request `restoreWallet` sends: the stored keys, index range 0..0. */
  function SingleAddressRequest(state: State, accountId: int, assetId: string): (req: DeriveRequest)
    ensures req.indexStart == 0 && req.indexEnd == 0
    ensures req.assetId == assetId && req.accountId == accountId
    ensures req.xprv == (if state.extendedKeys.Some? then state.extendedKeys.value.xprv else None)
    ensures req.fprv == (if state.extendedKeys.Some? then state.extendedKeys.value.fprv else None)
  {
    var k := state.extendedKeys.GetOr(ExtendedKeys(None, None, None, None));
    DeriveRequest(k.xprv, k.fprv, assetId, accountId, 0, 0)
  }

  /** `restoreWallet(accountId, assetId)`: the asset's wallet in that account
      is replaced (or added) with the derivations for index 0; nothing else
      changes, and nothing at all when the account does not exist. */
  function RestoreWallet(state: State, accountId: int, assetId: string, derive: Deriver): (r: State)
    ensures r.extendedKeys == state.extendedKeys
    ensures r.vaultAccounts.Keys == state.vaultAccounts.Keys
    ensures accountId !in state.vaultAccounts ==> r == state
    ensures forall k :: k in state.vaultAccounts && k != accountId ==> r.vaultAccounts[k] == state.vaultAccounts[k]
    ensures accountId in state.vaultAccounts ==>
              var before := state.vaultAccounts[accountId];
              var after := r.vaultAccounts[accountId];
              && after.id == before.id && after.name == before.name
              && after.wallets.Keys == before.wallets.Keys + {assetId}
              && (forall a :: a in before.wallets && a != assetId ==> after.wallets[a] == before.wallets[a])
              && after.wallets[assetId].assetId == assetId
              && (after.wallets[assetId].isTestnet <==> Contains(assetId, "_TEST"))
              && after.wallets[assetId].derivations == derive(SingleAddressRequest(state, accountId, assetId))
  {
    if accountId in state.vaultAccounts then
      var account := state.vaultAccounts[accountId];
      var derivations := derive(SingleAddressRequest(state, accountId, assetId));
      var wallet := Wallet(assetId, WalletTestnet(assetId), derivations);
      state.(vaultAccounts := state.vaultAccounts[accountId := account.(wallets := account.wallets[assetId := wallet])])
    else
      state
  }

  /** Restoring the same wallet twice is the same as restoring it once. */
  lemma RestoreWalletIdempotent(state: State, accountId: int, assetId: string, derive: Deriver)
    ensures var once := RestoreWallet(state, accountId, assetId, derive);
            RestoreWallet(once, accountId, assetId, derive) == once
  {
    var once := RestoreWallet(state, accountId, assetId, derive);
    var twice := RestoreWallet(once, accountId, assetId, derive);
    if accountId in state.vaultAccounts {
      assert SingleAddressRequest(once, accountId, assetId) == SingleAddressRequest(state, accountId, assetId);
      assert twice.vaultAccounts[accountId] == once.vaultAccounts[accountId];
      assert twice.vaultAccounts == once.vaultAccounts;
    }
  }

  /** A wallet that `restoreWallet` marks testnet is also testnet by the
      CSV import's looser rule. */
  lemma RestoreTestnetImpliesCsvTestnet(assetId: string)
    requires WalletTestnet(assetId)
    ensures CsvTestnet(assetId)
  {
    ContainsUnderscoreTest(assetId);
  }

  // ---------------------------------------------------------------------
  // The URL query

  /** A query parameter: absent, given once, or repeated. */
  datatype QueryValue = Missing | Single(s: string) | Repeated(values: seq<string>)

  /** `!["false", "0"].includes(v.toLowerCase())` for a string parameter;
      undefined otherwise. The lower-casing is ASCII, which decides this
      comparison exactly: no other character lower-cases to a letter of
      "false". */
  function QueryIsTestnet(q: QueryValue): (r: Option<bool>)
    ensures q.Single? <==> r.Some?
  {
    match q
    case Single(s) =>
      var lower := ToLowerAscii(s);
      Some(!(lower == "false" || lower == "0"))
    case _ => None
  }

  /** `s` spells "false" in any mix of upper and lower case. */
  predicate SpellsFalse(s: string) {
    && |s| == 5
    && (s[0] == 'f' || s[0] == 'F') && (s[1] == 'a' || s[1] == 'A') && (s[2] == 'l' || s[2] == 'L')
    && (s[3] == 's' || s[3] == 'S') && (s[4] == 'e' || s[4] == 'E')
  }

  /** A string parameter is read as mainnet exactly when it is "0" or some
      capitalisation of "false"; any other string means testnet. */
  lemma QueryIsTestnetFalseIff(s: string)
    ensures QueryIsTestnet(Single(s)) == Some(false) <==> s == "0" || SpellsFalse(s)
  {
    var lower := ToLowerAscii(s);
    if SpellsFalse(s) {
      assert lower == "false";
    }
    if lower == "0" {
      assert s == "0";
    }
    if lower == "false" {
      assert lower[0] == 'f' && lower[1] == 'a' && lower[2] == 'l' && lower[3] == 's' && lower[4] == 'e';
    }
  }

  /** The `path` parameter: split and parsed when a string, else empty. */
  function QueryPathParts(q: QueryValue): (parts: seq<JsNum>)
    ensures q.Single? ==> |parts| == multiset(q.s)[','] + 1
    ensures !q.Single? ==> parts == []
  {
    match q
    case Single(s) => SplitPath(s)
    case _ => []
  }

  /** A path built from integers reads back as those integers. */
  lemma QueryPathPartsOfInts(ns: seq<int>)
    requires |ns| > 0
    ensures QueryPathParts(Single(JoinInts(ns))) == seq(|ns|, i requires 0 <= i < |ns| => Num(ns[i]))
  {
    SplitPathOfJoinInts(ns);
  }

  // ---------------------------------------------------------------------
  // Reset

  /** `reset`: no extended keys and no accounts. */
  function Reset(state: State): (r: State)
    ensures r.extendedKeys.None? && |r.vaultAccounts| == 0
  {
    State(None, map[])
  }

  /** After a reset the next account gets id 0, whatever came before. */
  method ResetThenRestoreAccount(state: State, name: string) returns (id: int, next: State)
    ensures id == 0 && next.vaultAccounts.Keys == {0} && next.vaultAccounts[0].name == name
  {
    id, next := RestoreVaultAccount(Reset(state), name);
  }
}

=== FILE: wrappers.dfy ===
/** Failure-compatible wrappers used by every module: Option for values the
    source leaves `undefined`/`None`, Result for operations that throw. */
module Wrappers {

  datatype Option<+T> = None | Some(value: T) {

    predicate IsFailure() {
      None?
    }

    function PropagateFailure<U>(): Option<U>
      requires None?
    {
      None
    }

    function Extract(): T
      requires Some?
    {
      value
    }

    /** The value, or `default` when absent (the `??` operator). */
    function GetOr(default: T): T {
      match this
      case Some(v) => v
      case None => default
    }
  }

  /** `Success` carries a value; `Failure` carries what the source throws. */
  datatype Result<+T, +E> = Success(value: T) | Failure(error: E) {

    predicate IsFailure() {
      Failure?
    }

    function PropagateFailure<U>(): Result<U, E>
      requires Failure?
    {
      Failure(error)
    }

    function Extract(): T
      requires Success?
    {
      value
    }
  }
}
